=== FILE: README.md ===
# ci-recipes core, modelled in Dafny

This project models the core of mozilla/ci-recipes, a set of "recipes" that
analyse continuous-integration pushes of the Firefox source tree:

- `ci_info/push.py` — a push, the tasks that ran on it (retriggers and
  backfills included), the per-label summaries and their PASS / FAIL /
  INTERMITTENT status, durations in hours, the labels a push regressed and
  whether an originally scheduled task caught them, and the lookup of a
  decision-task artifact by name (module `CiPush`, `Push.dfy`).
- `recipes/scheduler_analysis.py` — backtesting of scheduling strategies:
  the `Score` counters, the cache key of a strategy's selection, the order
  in which a selection is looked up (cache, "baseline", shadow scheduler,
  local generation), the scoring of a push and the accumulation of scores
  (module `SchedulerAnalysis`, `Scheduler.dfy`).
- `recipes/compare_pushes.py` and `recipes/inspect_bugbug.py` — both fold
  the test tasks of a push into one set of manifests or groups per label
  without its chunk number (shared in module `TestGroups`,
  `TestGroups.dfy`); the first compares two pushes label by label
  (`ComparePushes.dfy`), the second parses a push given as a treeherder URL
  or `<branch>:<rev>` and ranks the push's groups by bugbug confidence
  (`InspectBugbug.dfy`).
- `recipes/push_data.py` — the chain of push objects built from the
  `push_revisions` query and the per-push table (`PushData.dfy`).

`Strings.dfy` holds the parts of Python's `str` the recipes use (`in`,
`index`, `replace`, `split`, `rsplit`, `startswith`, string ordering);
`Sorting.dfy` holds `sorted` on a set as an insertion sort proved against a
strict total order; `Wrappers.dfy` holds `Option` and `Result`.

Data the original downloads (task rows, decision artifacts, hg.mozilla.org
records, bugbug confidences, shadow-scheduler selections, likely
regressions) are inputs of the model. Memoised properties are functions of
those inputs. Where the original computes a property with a loop
(`status`, `label_summaries`, `scheduled_duration`, `regressions`,
`get_manifests_by_task`, `make_push_objects`), the loop is a method proved
against the function that specifies it. `Score` and the strategy cache are
classes whose fields the methods update. `Scheduler` is a class with constant
fields whose methods `Analyze` and `Backtest` update its `Score` and the
shared cache.

## Model

| member | source | states |
|---|---|---|
| CiPush.NewLabelSummary | ci_info/push.py:29-36 | a summary is built exactly when every task carries the summary's label (otherwise `AssertionError`), and it keeps that label and those tasks |
| CiPush.Classifications | ci_info/push.py:38-40 | the classifications are exactly those some task of the summary carries |
| CiPush.Results | ci_info/push.py:42-44 | the results are exactly those some task of the summary carries |
| CiPush.FoldIsVerdict | ci_info/push.py:46-60 | the status loop yields no status for no tasks, FAIL when every result is busted/exception/testfailed, PASS when none is, and INTERMITTENT otherwise |
| CiPush.IntermittentAbsorbs | ci_info/push.py:55-58 | once the status is INTERMITTENT, further tasks never change it |
| CiPush.PermutationKeepsAllNone | ci_info/push.py:46-60 | "every task fails" and "no task fails" do not depend on the order of the tasks |
| CiPush.StatusOrderIndependent | ci_info/push.py:46-60 | two orderings of the same retriggers have the same status |
| CiPush.SummaryStatus | ci_info/push.py:46-60 | the loop over the tasks computes the verdict described by FoldIsVerdict |
| CiPush.BackedOut | ci_info/push.py:84-91 | a push is backed out exactly when hg.mozilla.org names a non-empty backing-out revision |
| CiPush.BackedOutBy | ci_info/push.py:75-82 | the backing-out revision is the hg.mozilla.org value when that is a non-empty string, and None when it is missing or empty |
| CiPush.TaskLabels | ci_info/push.py:126-133 | `task_labels` holds exactly the labels of the push's tasks |
| CiPush.Labels | ci_info/push.py:126-133 | the task labels are exactly the labels of the tasks that ran |
| CiPush.TargetTaskLabels | ci_info/push.py:135-142 | the target labels are exactly the entries of `target-tasks.json` |
| CiPush.ScheduledTaskLabels | ci_info/push.py:144-154 | the scheduled labels are exactly the labels of the entries of `task-graph.json` |
| CiPush.UnscheduledTaskLabels | ci_info/push.py:156-164 | the unscheduled labels are the labels that ran and were not scheduled, so every label that ran is scheduled or unscheduled and never both |
| CiPush.TasksWithLabel | ci_info/push.py:172-174 | a label's tasks are exactly the tasks that ran with that label |
| CiPush.LabelSummaries | ci_info/push.py:166-176 | there is one summary per label that ran, holding all of that label's tasks in run order |
| CiPush.SummariesPartitionTasks | ci_info/push.py:166-176 | every task is in the summary of its own label and in no other; every summary is well formed and non-empty |
| CiPush.TruncHours | ci_info/push.py:185 | `int(seconds / 3600)` truncates toward zero: the hours are the whole hours in the seconds, for negative totals too |
| CiPush.TruncHoursMonotonic | ci_info/push.py:185 | more seconds never give fewer hours, for any signs |
| CiPush.Duration | ci_info/push.py:178-185 | `duration` is the whole number of hours in the summed task durations |
| CiPush.ScheduledDuration | ci_info/push.py:187-200 | the loop sums the durations of the first task of each label and converts the sum to hours |
| CiPush.FirstSeenAtMostTotal | ci_info/push.py:178-200 | with non-negative durations, the first-seen sum lies between zero and the sum over all tasks |
| CiPush.ScheduledDurationAtMostDuration | ci_info/push.py:178-200 | with non-negative durations, `scheduled_duration` is at most `duration` |
| CiPush.FirstSeenWithoutRetriggers | ci_info/push.py:187-200 | without retriggers (all labels distinct) both durations count the same seconds |
| CiPush.RegressionSet | ci_info/push.py:202-216 | a label is a regression exactly when it ran, its status is not PASS and one of its classifications is "not classified" or "fixed by commit" |
| CiPush.RegressedLabels | ci_info/push.py:209-216 | the loop over the summaries keeps exactly the labels whose summary is regressed |
| CiPush.Regressions | ci_info/push.py:202-216 | `regressions` over the label summaries computes exactly the regression set |
| CiPush.NotPassIffSomeFailure | ci_info/push.py:46-60 | a label's status is not PASS exactly when some task of that label has a failing result |
| CiPush.UnresolvedIffSomeTask | ci_info/push.py:214 | a label has an unresolved classification exactly when some task of that label carries one |
| CiPush.RegressionFromTasks | ci_info/push.py:202-216 | a label is a regression exactly when some task of it failed and some task of it is unclassified or fixed by commit, stated on the task rows alone |
| CiPush.RegressionsCaught | ci_info/push.py:228-235 | the caught regressions are exactly the regressions that were scheduled |
| CiPush.RegressionsMissed | ci_info/push.py:218-226 | the missed regressions are exactly the regressions that were not scheduled |
| CiPush.CaughtMissedPartition | ci_info/push.py:218-235 | caught and missed regressions are disjoint, together they are all regressions, and every missed one is an unscheduled label |
| CiPush.LastSegment | ci_info/push.py:257 | `rsplit('/', 1)[1]` is the text after the last '/', and fails when the URL has no '/' |
| CiPush.FindDecisionArtifact | ci_info/push.py:246-258 | the lookup returns the first URL whose last segment is the name, unless an earlier URL has no '/' (Python raises `IndexError` there, and the lookup reports that URL); NotFound means every URL has a '/' and none has the name |
| SchedulerAnalysis.TotalAppend | recipes/scheduler_analysis.py:78-81 | adding the scores of two batches one after the other equals adding their combined total |
| SchedulerAnalysis.TotalOrderIndependent | recipes/scheduler_analysis.py:242-244 | the accumulated score does not depend on the order of the pushes |
| SchedulerAnalysis.KwargsToCounts | recipes/scheduler_analysis.py:229-230 | `Score(**data)` accepts exactly the dictionaries whose keys are field names, and a missing field defaults to 0 |
| SchedulerAnalysis.Score.constructor | recipes/scheduler_analysis.py:57-61 | a new score holds the given counters |
| SchedulerAnalysis.Score.SecondaryBackoutRate | recipes/scheduler_analysis.py:63-69 | the rate is 0 without backouts and otherwise secondary / (primary + secondary), which lies in [0, 1] for non-negative counters |
| SchedulerAnalysis.Score.SchedulerEfficiency | recipes/scheduler_analysis.py:71-76 | the efficiency is 0 when rate × tasks is 0, otherwise 100000 / (rate × tasks); in exact arithmetic it is positive when there are tasks and secondary backouts |
| SchedulerAnalysis.Score.Update | recipes/scheduler_analysis.py:78-81 | each counter grows by the other score's counter |
| SchedulerAnalysis.Score.AsDict | recipes/scheduler_analysis.py:83-88 | the dictionary has exactly the three field names as keys, and `Score(**score.as_dict())` gives back the same counters |
| SchedulerAnalysis.Cache.Put | recipes/scheduler_analysis.py:120 | storing a selection sets that key and leaves every other key as it was |
| SchedulerAnalysis.CacheKey | recipes/scheduler_analysis.py:106-110 | the key is `scheduler.<rev>.<name>`, followed by `.<hash>` exactly when the strategy file exists |
| SchedulerAnalysis.CacheKeyTracksHash | recipes/scheduler_analysis.py:106-110 | for one revision and strategy, different strategy-file hashes give different keys |
| SchedulerAnalysis.CacheKeySeparatesRevisions | recipes/scheduler_analysis.py:106-110 | revisions without a '.' never share a key |
| SchedulerAnalysis.Resolve | recipes/scheduler_analysis.py:112-151 | a cached selection wins; otherwise the selection is the scheduled labels for "baseline", the shadow scheduler's, or the local one; `MissingDataError` exactly when none of the first three applies and there is no checkout or strategy file; `ToolFailure` exactly when local generation was attempted and failed |
| SchedulerAnalysis.ResolveAfterPut | recipes/scheduler_analysis.py:112-114 | once a selection is cached, the next lookup returns it whatever the other sources say |
| SchedulerAnalysis.BackoutScore | recipes/scheduler_analysis.py:153-165 | a push scores its number of selected tasks; a backed-out push scores one backout, primary exactly when the selection contains a likely regression and secondary otherwise; a push that was not backed out scores no backout |
| SchedulerAnalysis.Scheduler.constructor | recipes/scheduler_analysis.py:91-94 | a new strategy has the given name and a zero score |
| SchedulerAnalysis.Scheduler.GetTasks | recipes/scheduler_analysis.py:105-151 | the selection comes from the cache, then "baseline", then the shadow scheduler, then local generation; `MissingDataError` is raised without a checkout or strategy file; a selection not already cached is stored under the key and nothing else changes |
| SchedulerAnalysis.Scheduler.PushOutcome | recipes/scheduler_analysis.py:153-161 | a push fails exactly when its selection fails, with the same error; otherwise it scores the size of the selection and one backout exactly when the push was backed out, primary exactly when the selection meets the likely regressions |
| SchedulerAnalysis.Scheduler.Analyze | recipes/scheduler_analysis.py:153-165 | the push's score is PushOutcome of the cache as it was; the cache afterwards is the `get_tasks` update (a fresh selection stored, nothing else changed); the strategy's total grows by exactly that score, and stays unchanged when the lookup fails |
| SchedulerAnalysis.Scheduler.Backtest | recipes/scheduler_analysis.py:234-246 | the result and the final cache are those of Replay: pushes are taken in order, each with the cache the earlier ones left, a push with `MissingDataError` is skipped, every other push is scored with PushOutcome, and the first `ToolFailure` stops the run; the strategy's total grows by the sum of the returned scores; after a `ToolFailure` it has grown by the scores of the pushes taken before the failing one |
| SchedulerAnalysis.Scheduler.ReplayShape | recipes/scheduler_analysis.py:234-246 | a run returns at most one score per push, fails only with `ToolFailure`, and never drops or overwrites a cached selection |
| SchedulerAnalysis.Scheduler.ReplayStops | recipes/scheduler_analysis.py:242-246 | once a run has failed, later pushes change neither its result nor the cache |
| TestGroups.GroupList | recipes/compare_pushes.py:60-62 | a single string becomes a one-element list; a list is kept |
| TestGroups.LastChunk | recipes/compare_pushes.py:54 | the chunk is the text after the last '-': the label is the text before it, a '-', and the chunk, which holds no '-' |
| TestGroups.ChunklessLabel | recipes/compare_pushes.py:54-58 | the key is the label itself, or the label without its last `-<number>` when that last chunk is a number |
| TestGroups.ChunklessLabelCases | recipes/compare_pushes.py:54-58 | a numeric last chunk is cut off together with its '-'; any other label is kept whole |
| TestGroups.ChunkNumberRemoved | recipes/compare_pushes.py:54-58 | `<base>-<number>` files under `<base>` |
| TestGroups.UnnumberedLabelKept | recipes/compare_pushes.py:54-58 | a label whose last chunk is not a number files under itself |
| TestGroups.StripReftestRoot | recipes/compare_pushes.py:34-44 | backslashes become '/', and a path holding `tests/reftest/tests` keeps only what follows that root and the one character after it |
| TestGroups.RelativePathUnchanged | recipes/compare_pushes.py:34-44 | a '/'-separated path without the reftest root is left as it is |
| TestGroups.NormalizedGroups | recipes/compare_pushes.py:60-63 | a task contributes exactly the normalised forms of its groups |
| TestGroups.Filter | recipes/compare_pushes.py:48-50 | the list comprehension keeps exactly the tasks that pass the test |
| TestGroups.TestPrefixHasDash | recipes/compare_pushes.py:48-54 | a `test-` label always has a '-', so the two-way `rsplit` never fails |
| TestGroups.CollectGroups | recipes/compare_pushes.py:52-64 | the keys are exactly the chunk-less labels of the tasks, and each key's set holds exactly the normalised groups of the tasks filed under it |
| ComparePushes.ManifestsByTask | recipes/compare_pushes.py:47-64 | only scheduled `test-` tasks are kept, and each chunk-less label maps to exactly the normalised manifests its tasks ran |
| ComparePushes.Expected | recipes/compare_pushes.py:76-91 | a label is reported as not run in the first push, not run in the second, matching or not matching, and exactly one of these holds |
| ComparePushes.CompareLabel | recipes/compare_pushes.py:79-91 | comparing the sorted manifest lists decides the same as comparing the two manifest sets |
| ComparePushes.FilterLabels | recipes/compare_pushes.py:72-74 | `filter` keeps exactly the labels the search accepts, and keeps a sorted list sorted |
| ComparePushes.SortedLabels | recipes/compare_pushes.py:71 | `sorted` lists exactly the labels of the set, in strictly increasing order |
| ComparePushes.ReportFollowsLabels | recipes/compare_pushes.py:71-76 | a report written label by label covers exactly those labels and keeps their order |
| ComparePushes.Run | recipes/compare_pushes.py:67-115 | every label of either push that passes the filter is reported once, in sorted order, with the verdict of Expected |
| InspectBugbug.IsSkipSuite | recipes/inspect_bugbug.py:26-32 | a label is skipped exactly when it contains `-jsreftest-` |
| InspectBugbug.CutAtColon | recipes/inspect_bugbug.py:45-46 | `split(":")[0]` is the text before the first ':'; a group without ':' is kept |
| InspectBugbug.Normalize | recipes/inspect_bugbug.py:35-47 | the group is made relative to the reftest root and then cut at its first ':' |
| InspectBugbug.GroupsByTask | recipes/inspect_bugbug.py:50-68 | only scheduled `test-` tasks outside the skip list are kept, and each chunk-less label maps to exactly the normalised groups its tasks ran |
| InspectBugbug.SplitItems | recipes/inspect_bugbug.py:79 | each query item is split at every '=' |
| InspectBugbug.Dict | recipes/inspect_bugbug.py:79 | the dictionary is built exactly when every item split into at least two pieces, and `IndexError` is raised otherwise |
| InspectBugbug.Params | recipes/inspect_bugbug.py:79 | the query parses exactly when every item holds a '=' |
| InspectBugbug.DictKeys | recipes/inspect_bugbug.py:79 | the keys are exactly the text before the first '=' of the items |
| InspectBugbug.DictLastWins | recipes/inspect_bugbug.py:79 | a key repeated in the query takes the value of its last item |
| InspectBugbug.ParamsOfTwo | recipes/inspect_bugbug.py:79-81 | `repo=<repo>&revision=<rev>` parses to exactly those two entries |
| InspectBugbug.Checked | recipes/inspect_bugbug.py:86-90 | a push is built exactly when both branch and revision are present and non-empty, and `TypeError` is raised otherwise |
| InspectBugbug.FromTreeherder | recipes/inspect_bugbug.py:77-81 | a fragment without '?' raises `ValueError`; a push built from it has the `repo` and `revision` of the query after the first '?' |
| InspectBugbug.FromParsedQuery | recipes/inspect_bugbug.py:77-90 | a parsed query gives a push exactly when its `repo` and `revision` entries are both non-empty |
| InspectBugbug.SplitOnce | recipes/inspect_bugbug.py:84 | `split(":", 1)` cuts at the first ':' |
| InspectBugbug.FromBranchRev | recipes/inspect_bugbug.py:83-84 | `<branch>:<rev>` gives a push exactly when both sides of the first ':' are non-empty |
| InspectBugbug.GetPushObject | recipes/inspect_bugbug.py:71-90 | a URL must be on treeherder (otherwise `TypeError`) and have a '?' in its fragment (otherwise `ValueError`); a spec that is neither a URL nor `<branch>:<rev>` raises `TypeError`; a push returned always has a non-empty branch and revision |
| InspectBugbug.BranchRevRoundTrip | recipes/inspect_bugbug.py:71-90 | `<branch>:<rev>` for a branch without ':' is parsed back into that branch and revision |
| InspectBugbug.TreeherderRoundTrip | recipes/inspect_bugbug.py:77-81 | a treeherder fragment ending in `?repo=<repo>&revision=<rev>` is parsed back into that branch and revision |
| InspectBugbug.AllGroups | recipes/inspect_bugbug.py:98-99 | `set(chain(*groups_by_task.values()))` holds exactly the groups of some task |
| InspectBugbug.Pairing | recipes/inspect_bugbug.py:98-99 | each group is paired with its bugbug confidence, or 0 when bugbug has none |
| InspectBugbug.PairingKeepsSize | recipes/inspect_bugbug.py:98-99 | there is one pair per group |
| InspectBugbug.RankingIsTotal | recipes/inspect_bugbug.py:102 | the key (confidence, group) in reverse orders the pairs of distinct groups strictly and totally |
| InspectBugbug.RankGroups | recipes/inspect_bugbug.py:93-103 | every group appears exactly once, from the highest confidence down, and ties are broken by descending group name |
| PushData.Topmost | recipes/push_data.py:23 | the topmost candidates are the revisions of the push that are not parents within it |
| PushData.PushObject.constructor | recipes/push_data.py:25 | a new push has the given revision and branch, and no parent set |
| PushData.MakePushObjects | recipes/push_data.py:17-33 | one push per row in row order, each at a topmost revision of its row, on the default branch and linked to the push before it; the first row without a topmost revision raises `IndexError` |
| PushData.RowOf | recipes/push_data.py:54-59 | a data row starts with the push's revision |
| PushData.Table | recipes/push_data.py:42-59 | the table is the header followed by one row per push, in order |
| PushData.Run | recipes/push_data.py:36-61 | the table has the header and then one row per query row, each at a topmost revision of that query row and holding the task labels and the possible and likely regressions fetched for that revision on the default branch; it fails exactly when some row has no topmost revision |
| Strings.ReplaceChar | recipes/compare_pushes.py:35 | `replace` swaps every occurrence of the character and leaves the others in place |
| Strings.IndexOf | recipes/compare_pushes.py:41-42 | `index` finds the first occurrence, and there is none exactly when `in` is false |
| Strings.LastIndexOfChar | recipes/compare_pushes.py:54 | the position of the last occurrence of the character |
| Strings.Split | recipes/inspect_bugbug.py:79 | `split` gives pieces without the separator that join back into the string, and a single piece when the separator is absent |
| Sorting.SortSet | recipes/compare_pushes.py:87-88 | `sorted` on a set lists each element exactly once, in strictly increasing order |
| Sorting.SortedUnique | recipes/compare_pushes.py:87-89 | two strictly sorted lists with the same elements are equal, so comparing the sorted lists compares the sets |

## Left out

- Network and database access (`run_query`, `requests.get`, hg.mozilla.org, the decision task's artifacts, bugbug's `get_artifact`): their data are fields or parameters of the model.
- `Push.parent` (ci_info/push.py:102-113): it reads an undefined name `other` and can never return, so it has no behaviour to model. The `_parent` link that push_data.py sets is modelled.
- `pushid` (ci_info/push.py:93-100) is not modelled as an operation: in ci_info/push.py only `parent` (ci_info/push.py:112) reads it, and `parent` is left out. The record keeps the value. The `run` of recipes/scheduler_analysis.py groups pushes by a `date` attribute (line 209) and sorts them by an `id` attribute (line 235); the modelled push defines neither, and that grouping and sort are left out with the rest of `run` outside the per-push loop, so Backtest takes the pushes in the order given.
- CiPush.ScheduledTaskLabels and CiPush.TargetTaskLabels: `task-graph.json` and `target-tasks.json` are always present here. In the original, `_get_decision_artifact` returns None when no URL matches (the NotFound case of `CiPush.FindDecisionArtifact`); `scheduled_task_labels` then raises `AttributeError` (ci_info/push.py:153) and `target_task_labels` raises `TypeError` (ci_info/push.py:142). For "baseline" that error escapes `except MissingDataError` (recipes/scheduler_analysis.py:118, 245) and aborts the run. The model does not capture this failure.
- Memoisation (`memoized_property`, `memoize`): results are pure functions of the inputs, so caching does not change them.
- `_hgmo`, `_decision_artifact_urls` and `tasks`: these are fetches. They are taken as the `hgmo`, artifact URL and `tasks` inputs.
- `likely_regressions`, `get_shadow_scheduler_tasks`, `possible_regressions` and `decision_task` are not defined in the modelled sources; they are inputs.
- The artifact JSON download in `_get_decision_artifact` is left out. `CiPush.FindDecisionArtifact` returns which URL would be downloaded.
- `Scheduler.path` and `config.cache._hash` are file-system and hashing operations; together they are the input `strategyHash` (None when no `strategies/<name>.py` exists). The global `GECKO` (recipes/scheduler_analysis.py:54, set from `--gecko-path` at line 183 and tested at line 131) is the input `geckoAvailable`.
- The local `./mach taskgraph optimized` run and `hg update` are subprocesses. Their outcome is the `local` input; a failure is `ToolFailure`.
- The cache's 30-day expiry is not modelled; an entry stays once stored.
- scheduler_analysis.py's `run` (lines 180-279) outside the per-push loop is left out: argument handling, cloning the source tree (`clone_gecko`, `hg`), grouping pushes by date, the per-date result cache (lines 207-232 and 248), and the final table and its sort (lines 256-279).
- SchedulerAnalysis.Scheduler.Backtest scores one strategy over all pushes. The original loops over pushes and, per push, over strategies. When every push succeeds or lacks data, each strategy's score depends only on its own selections, so the per-strategy totals agree. A `ToolFailure` in any one strategy (the `CalledProcessError` of the local `./mach taskgraph optimized` run, line 144) is not caught by `except MissingDataError` (line 245) and ends `run` for every strategy; the model does not capture this, so Backtest of another strategy over the same pushes still returns its totals and makes cache writes the original never makes. The interleaving of cache writes across strategies is not modelled either.
- SchedulerAnalysis.Score.SecondaryBackoutRate: exact rationals; `round(..., 2)` and floating-point error are not modelled.
- SchedulerAnalysis.Score.SchedulerEfficiency: exact rationals; `round(..., 2)` and floating-point error are not modelled. Its positivity clause holds only without rounding: the program rounds the rate to 0.0 when it is below 0.005 and then returns 0 (counters 300, 1, 10 give 0 there, a positive value here).
- CiPush.TruncHours: exact integer division; the floating-point quotient before `int()` is not modelled.
- TestGroups.ChunklessLabel: `int(chunk)` succeeds on a non-empty run of ASCII digits. Python also accepts a sign, surrounding whitespace, underscores and other Unicode digits; those are not modelled.
- compare_pushes.py's `unified_diff` output, the coloured log lines and `inspect_bugbug.py`'s printing are output only; `ComparePushes.Run` returns the per-label verdicts instead.
- The `--task-filter` regular expression is a predicate parameter `keep`.
- `urlparse` is not modelled. Its `netloc` and `fragment` are the `UrlParts` input.
- The `mozci` push of compare_pushes.py and inspect_bugbug.py is `TestGroups.TestPush`: its tasks and scheduled labels.
- Confidences from `public/bugbug-push-schedules.json` are a map input.
- PushData.MakePushObjects: when a row fails, the pushes already built are discarded with the error, as in the original; which element `list(set(...))[0]` picks is left open.
- `PushData.Run` takes the data of each push as the function `fetch(rev, branch)`.
- recipes/push_health.py and recipes/strategies/randomchance_10.py are context and are not part of this model.

=== FILE: ComparePushes.dfy ===
/**
 * recipes/compare_pushes.py: which test manifests each (chunk-less) task
 * label ran on two pushes, and whether the two pushes agree label by label.
 */
module ComparePushes {
  import opened Strings
  import opened Sorting
  import opened TestGroups

  /** The tasks whose manifests are compared: scheduled test tasks. */
  predicate IsCompared(push: TestPush, t: TestTask)
  {
    t.name in push.scheduledTaskLabels && StartsWith(t.name, "test-")
  }

  /**
   * `get_manifests_by_task`: the normalised manifests of the scheduled test
   * tasks, keyed by label without its chunk number.
   */
  method ManifestsByTask(push: TestPush) returns (byTask: map<string, set<string>>)
    ensures forall key :: key in byTask <==>
      exists t :: t in push.tasks && IsCompared(push, t) && FiledUnder(t, key)
    ensures forall key, m :: key in byTask ==>
      (m in byTask[key] <==>
        exists t :: t in push.tasks && IsCompared(push, t) && Contributes(t, key, m, StripReftestRoot))
  {
    var tasks := Filter(push.tasks, t => IsCompared(push, t));
    forall t | t in tasks
      ensures '-' in t.name
    {
      TestPrefixHasDash(t.name);
    }
    byTask := CollectGroups(tasks, StripReftestRoot);
  }

  /** What `run` reports about one label. */
  datatype Outcome = NotRunInFirst | NotRunInSecond | Matches | DoesNotMatch

  /** The verdict `run` reaches, stated on the manifest sets. */
  function Expected(a: map<string, set<string>>, b: map<string, set<string>>, lab: string): (o: Outcome)
    ensures o == Matches <==> lab in a && lab in b && a[lab] == b[lab]
    ensures o == DoesNotMatch <==> lab in a && lab in b && a[lab] != b[lab]
    ensures o == NotRunInFirst <==> lab !in a
    ensures o == NotRunInSecond <==> lab in a && lab !in b
  {
    if lab !in a then NotRunInFirst
    else if lab !in b then NotRunInSecond
    else if a[lab] == b[lab] then Matches
    else DoesNotMatch
  }

  /** One label of `run`: the manifest lists are compared after sorting. */
  method CompareLabel(a: map<string, set<string>>, b: map<string, set<string>>, lab: string)
    returns (o: Outcome)
    ensures o == Expected(a, b, lab)
  {
    if lab !in a {
      return NotRunInFirst;
    }
    if lab !in b {
      return NotRunInSecond;
    }
    StringsOrdered(a[lab]);
    StringsOrdered(b[lab]);
    var groupsA := SortSet(a[lab], Less);
    var groupsB := SortSet(b[lab], Less);
    if groupsA == groupsB {
      assert a[lab] == b[lab] by {
        forall m ensures m in a[lab] <==> m in b[lab] {
          assert m in groupsA <==> m in groupsB;
        }
      }
      o := Matches;
    } else {
      if a[lab] == b[lab] {
        SortedUnique(groupsA, groupsB, Less, a[lab]);
      }
      o := DoesNotMatch;
    }
  }

  /** Python's `filter(keep, labels)`: order is kept, so sortedness is too. */
  function FilterLabels(labels: seq<string>, keep: string -> bool): (r: seq<string>)
    ensures forall lab :: lab in r <==> lab in labels && keep(lab)
    ensures SortedBy(labels, Less) ==> SortedBy(r, Less)
  {
    if |labels| == 0 then []
    else
      var rest := FilterLabels(labels[1..], keep);
      assert SortedBy(labels, Less) ==> forall lab :: lab in rest ==> Less(labels[0], lab) by {
        if SortedBy(labels, Less) {
          forall lab | lab in rest ensures Less(labels[0], lab) {
            var j :| 1 <= j < |labels| && labels[j] == lab;
          }
        }
      }
      (if keep(labels[0]) then [labels[0]] else []) + rest
  }

  /** `sorted(labels)`. */
  method SortedLabels(labels: set<string>) returns (r: seq<string>)
    ensures SortedBy(r, Less)
    ensures forall lab :: lab in r <==> lab in labels
  {
    StringsOrdered(labels);
    r := SortSet(labels, Less);
  }

  /** A report that follows `labels` one for one lists exactly those labels, in their order. */
  lemma ReportFollowsLabels(labels: seq<string>, report: seq<(string, Outcome)>)
    requires |report| == |labels|
    requires forall i :: 0 <= i < |labels| ==> report[i].0 == labels[i]
    ensures forall lab :: lab in labels <==> exists i :: 0 <= i < |report| && report[i].0 == lab
    ensures SortedBy(labels, Less) ==> forall i, j :: 0 <= i < j < |report| ==> Less(report[i].0, report[j].0)
  {
    forall lab | lab in labels
      ensures exists i :: 0 <= i < |report| && report[i].0 == lab
    {
      var i :| 0 <= i < |labels| && labels[i] == lab;
      assert report[i].0 == lab;
    }
  }

  /**
   * `run` after the two maps are built: every label of either push that
   * `keep` (the optional `--task-filter` search) accepts, in sorted order,
   * with its verdict.
   */
  method Run(a: map<string, set<string>>, b: map<string, set<string>>, keep: string -> bool)
    returns (report: seq<(string, Outcome)>)
    ensures forall i :: 0 <= i < |report| ==> report[i].1 == Expected(a, b, report[i].0)
    ensures forall i, j :: 0 <= i < j < |report| ==> Less(report[i].0, report[j].0)
    ensures forall lab :: (lab in a || lab in b) && keep(lab) <==>
      exists i :: 0 <= i < |report| && report[i].0 == lab
  {
    var sorted := SortedLabels(a.Keys + b.Keys);
    var labels := FilterLabels(sorted, keep);
    report := [];
    for k := 0 to |labels|
      invariant |report| == k
      invariant forall i :: 0 <= i < k ==> report[i] == (labels[i], Expected(a, b, labels[i]))
    {
      var o := CompareLabel(a, b, labels[k]);
      report := report + [(labels[k], o)];
    }
    ReportFollowsLabels(labels, report);
    assert forall lab :: lab in labels <==> (lab in a || lab in b) && keep(lab);
  }
}

=== FILE: InspectBugbug.dfy ===
/**
 * recipes/inspect_bugbug.py: the groups a push ran, keyed by chunk-less
 * label, the parsing of the `--push` argument, and the groups listed with
 * the confidence bugbug gave each, most confident first.
 */
module InspectBugbug {
  import opened Wrappers
  import opened Strings
  import opened Sorting
  import opened TestGroups

  /** Suites whose tasks are ignored. */
  const SuitesSkipList: seq<string> := ["jsreftest"]

  /** `is_skip_suite`: the label names a suite of the skip list between dashes. */
  function IsSkipSuite(lab: string): (r: bool)
    ensures r <==> Contains(lab, "-jsreftest-")
  {
    assert "-" + SuitesSkipList[0] + "-" == "-jsreftest-";
    exists i :: 0 <= i < |SuitesSkipList| && Contains(lab, "-" + SuitesSkipList[i] + "-")
  }

  /** `group.split(":")[0]` when `group` holds a ':', `group` otherwise. */
  function CutAtColon(group: string): (r: string)
    ensures ':' !in r
    ensures forall c :: c in r ==> c in group
    ensures ':' !in group ==> r == group
    ensures ':' in group ==> |r| < |group| && group == r + ":" + group[|r| + 1..]
  {
    if ':' in group then
      var r := Split(group, ':')[0];
      assert forall c :: c in r ==> c in group;
      r
    else group
  }

  /**
   * `normalize` of this recipe: the manifest path made relative to the
   * reftest root, then cut at its first ':'.
   */
  function Normalize(group: string): (r: string)
    ensures '\\' !in r && ':' !in r
    ensures var g := StripReftestRoot(group);
      (':' !in g ==> r == g) && (':' in g ==> |r| < |g| && g == r + ":" + g[|r| + 1..])
  {
    CutAtColon(StripReftestRoot(group))
  }

  /** The tasks whose groups are listed: scheduled test tasks outside the skip list. */
  predicate IsInspected(push: TestPush, t: TestTask)
  {
    t.name in push.scheduledTaskLabels && StartsWith(t.name, "test-") && !IsSkipSuite(t.name)
  }

  /** `get_groups_by_task`. */
  method GroupsByTask(push: TestPush) returns (byTask: map<string, set<string>>)
    ensures forall key :: key in byTask <==>
      exists t :: t in push.tasks && IsInspected(push, t) && FiledUnder(t, key)
    ensures forall key, g :: key in byTask ==>
      (g in byTask[key] <==>
        exists t :: t in push.tasks && IsInspected(push, t) && Contributes(t, key, g, Normalize))
  {
    var tasks := Filter(push.tasks, t => IsInspected(push, t));
    forall t | t in tasks
      ensures '-' in t.name
    {
      TestPrefixHasDash(t.name);
    }
    byTask := CollectGroups(tasks, Normalize);
  }

  /** The exceptions `get_push_object` can raise. */
  datatype SpecError =
    | TypeError   // no branch or no revision could be found
    | ValueError  // a treeherder URL whose fragment has no '?'
    | IndexError  // a query item without '='

  /** The parts of `urlparse(spec)` the recipe reads. */
  datatype UrlParts = UrlParts(netloc: string, fragment: string)

  /** What `Push(rev, branch=branch)` is built from. */
  datatype PushRef = PushRef(branch: string, rev: string)

  /** `[i.split("=") for i in items]`. */
  function SplitItems(items: seq<string>): (pieces: seq<seq<string>>)
    ensures |pieces| == |items|
    ensures forall i :: 0 <= i < |items| ==> pieces[i] == Split(items[i], '=')
  {
    seq(|items|, i requires 0 <= i < |items| => Split(items[i], '='))
  }

  /**
   * `{p[0]: p[1] for p in pieces}`: a piece list shorter than two raises
   * `IndexError`; otherwise every piece list sets its key, in order.
   */
  function Dict(pieces: seq<seq<string>>): (r: Result<map<string, string>, SpecError>)
    ensures r.Success? <==> forall i :: 0 <= i < |pieces| ==> |pieces[i]| >= 2
    ensures r.Failure? ==> r.error == IndexError
  {
    if |pieces| == 0 then Success(map[])
    else
      match Dict(pieces[..|pieces| - 1])
      case Failure(e) => Failure(e)
      case Success(m) =>
        var p := pieces[|pieces| - 1];
        if |p| < 2 then Failure(IndexError)
        else Success(m[p[0] := p[1]])
  }

  /** The query parameters of `&`-separated items; an item without '=' raises `IndexError`. */
  function Params(items: seq<string>): (r: Result<map<string, string>, SpecError>)
    ensures r.Success? <==> forall i :: 0 <= i < |items| ==> '=' in items[i]
    ensures r.Failure? ==> r.error == IndexError
  {
    var pieces := SplitItems(items);
    assert forall i :: 0 <= i < |items| ==> ('=' in items[i] <==> |pieces[i]| >= 2);
    Dict(pieces)
  }

  /** Building the dict from one more piece list: the earlier ones build, and the new one sets its key. */
  lemma DictSnoc(pieces: seq<seq<string>>)
    requires |pieces| > 0 && Dict(pieces).Success?
    ensures var init, p := pieces[..|pieces| - 1], pieces[|pieces| - 1];
      Dict(init).Success? && |p| >= 2 && Dict(pieces).value == Dict(init).value[p[0] := p[1]]
  {
  }

  /** The keys of the dict are the first pieces. */
  lemma {:induction false} DictKeys(pieces: seq<seq<string>>)
    requires Dict(pieces).Success?
    ensures forall k :: k in Dict(pieces).value <==>
      exists i :: 0 <= i < |pieces| && |pieces[i]| > 0 && pieces[i][0] == k
  {
    if |pieces| > 0 {
      var init := pieces[..|pieces| - 1];
      DictSnoc(pieces);
      DictKeys(init);
      var m := Dict(init).value;
      forall k
        ensures k in Dict(pieces).value <==> exists i :: 0 <= i < |pieces| && |pieces[i]| > 0 && pieces[i][0] == k
      {
        if k in m {
          var i :| 0 <= i < |init| && |init[i]| > 0 && init[i][0] == k;
          assert pieces[i] == init[i];
        }
        if exists i :: 0 <= i < |pieces| && |pieces[i]| > 0 && pieces[i][0] == k {
          var i :| 0 <= i < |pieces| && |pieces[i]| > 0 && pieces[i][0] == k;
          if i < |pieces| - 1 {
            assert init[i] == pieces[i];
          }
        }
      }
    }
  }

  /** Piece list `i` sets `k` to `v`, and no later one sets `k`. */
  predicate LastSetBy(pieces: seq<seq<string>>, i: int, k: string, v: string)
  {
    0 <= i < |pieces| && |pieces[i]| >= 2 && pieces[i][0] == k && pieces[i][1] == v &&
    forall j :: i < j < |pieces| ==> |pieces[j]| > 0 && pieces[j][0] != k
  }

  /** A key stays last set by the same piece list when a later one sets another key. */
  lemma LastSetByKept(pieces: seq<seq<string>>, i: int, k: string, v: string)
    requires |pieces| > 0 && |pieces[|pieces| - 1]| > 0 && pieces[|pieces| - 1][0] != k
    requires LastSetBy(pieces[..|pieces| - 1], i, k, v)
    ensures LastSetBy(pieces, i, k, v)
  {
    var init := pieces[..|pieces| - 1];
    assert pieces[i] == init[i];
    forall j | i < j < |pieces| ensures |pieces[j]| > 0 && pieces[j][0] != k {
      if j < |pieces| - 1 {
        assert pieces[j] == init[j];
      }
    }
  }

  /** Each key of the dict is bound to the second piece of the last piece list with that key. */
  lemma {:induction false} DictLastWins(pieces: seq<seq<string>>)
    requires Dict(pieces).Success?
    ensures forall k :: k in Dict(pieces).value ==> exists i :: LastSetBy(pieces, i, k, Dict(pieces).value[k])
  {
    if |pieces| > 0 {
      var init, p := pieces[..|pieces| - 1], pieces[|pieces| - 1];
      DictSnoc(pieces);
      DictLastWins(init);
      var m := Dict(init).value;
      var next := Dict(pieces).value;
      forall k | k in next
        ensures exists i :: LastSetBy(pieces, i, k, next[k])
      {
        if k == p[0] {
          assert LastSetBy(pieces, |pieces| - 1, k, next[k]);
        } else {
          var i :| LastSetBy(init, i, k, m[k]);
          LastSetByKept(pieces, i, k, m[k]);
        }
      }
    }
  }

  /** `if not branch or not rev: raise TypeError`, else the push to build. */
  function Checked(branch: Option<string>, rev: Option<string>): (r: Result<PushRef, SpecError>)
    ensures r.Success? <==> branch.Some? && branch.value != "" && rev.Some? && rev.value != ""
    ensures r.Success? ==> r.value == PushRef(branch.value, rev.value)
    ensures r.Failure? ==> r.error == TypeError
  {
    if branch.None? || branch.value == "" || rev.None? || rev.value == "" then Failure(TypeError)
    else Success(PushRef(branch.value, rev.value))
  }

  /** `params.get(key)`. */
  function Get(params: map<string, string>, key: string): Option<string>
  {
    if key in params then Some(params[key]) else None
  }

  /** The treeherder URL netloc marker. */
  const Treeherder := "treeherder.mozilla.org"

  /** The query after the first '?' of a treeherder URL fragment, as `&`-separated items. */
  function QueryItems(fragment: string): (items: seq<string>)
    requires '?' in fragment
  {
    Split(fragment[IndexOfChar(fragment, '?').value + 1..], '&')
  }

  /** The treeherder branch of `get_push_object`. */
  function FromTreeherder(fragment: string): (r: Result<PushRef, SpecError>)
    ensures '?' !in fragment ==> r == Failure(ValueError)
    ensures r.Success? ==>
      '?' in fragment && Params(QueryItems(fragment)).Success? &&
      Get(Params(QueryItems(fragment)).value, "repo") == Some(r.value.branch) &&
      Get(Params(QueryItems(fragment)).value, "revision") == Some(r.value.rev)
  {
    match IndexOfChar(fragment, '?')
    case None => Failure(ValueError)
    case Some(q) =>
      match Params(QueryItems(fragment))
      case Failure(e) => Failure(e)
      case Success(params) => Checked(Get(params, "repo"), Get(params, "revision"))
  }

  /** The `<branch>:<rev>` branch of `get_push_object`. */
  function FromBranchRev(spec: string): (r: Result<PushRef, SpecError>)
    requires ':' in spec
    ensures r.Success? <==> SplitOnce(spec, ':').0 != "" && SplitOnce(spec, ':').1 != ""
    ensures r.Success? ==> spec == r.value.branch + ":" + r.value.rev && ':' !in r.value.branch
  {
    var parts := SplitOnce(spec, ':');
    Checked(Some(parts.0), Some(parts.1))
  }

  /**
   * `get_push_object`: a treeherder URL (its `repo` and `revision` query
   * values, read from the fragment after its first '?') or `<branch>:<rev>`
   * split at the first ':'.  `url` stands for `urlparse(spec)`.
   */
  function GetPushObject(spec: string, url: UrlParts): (r: Result<PushRef, SpecError>)
    ensures r.Success? ==> r.value.branch != "" && r.value.rev != ""
    ensures !Contains(spec, "://") && ':' !in spec ==> r == Failure(TypeError)
    ensures Contains(spec, "://") && !Contains(url.netloc, Treeherder) ==> r == Failure(TypeError)
    ensures Contains(spec, "://") && Contains(url.netloc, Treeherder) && '?' !in url.fragment ==>
      r == Failure(ValueError)
    ensures !Contains(spec, "://") && r.Success? ==>
      spec == r.value.branch + ":" + r.value.rev && ':' !in r.value.branch
    ensures Contains(spec, "://") && r.Success? ==>
      '?' in url.fragment && Params(QueryItems(url.fragment)).Success? &&
      Get(Params(QueryItems(url.fragment)).value, "repo") == Some(r.value.branch) &&
      Get(Params(QueryItems(url.fragment)).value, "revision") == Some(r.value.rev)
  {
    if Contains(spec, "://") then
      if Contains(url.netloc, Treeherder) then FromTreeherder(url.fragment)
      else Checked(None, None)
    else if ':' in spec then FromBranchRev(spec)
    else Checked(None, None)
  }

  /** `s.split(sep, 1)` for a string holding `sep`: the text around its first occurrence. */
  function SplitOnce(s: string, sep: char): (r: (string, string))
    requires sep in s
    ensures s == r.0 + [sep] + r.1 && sep !in r.0
  {
    var i := IndexOfChar(s, sep).value;
    assert s == s[..i] + [sep] + s[i + 1..];
    (s[..i], s[i + 1..])
  }

  /** `<branch>:<rev>` parses back into its two parts; the revision may hold ':'. */
  lemma BranchRevRoundTrip(branch: string, rev: string, url: UrlParts)
    requires branch != "" && rev != "" && ':' !in branch
    requires !Contains(branch + ":" + rev, "://")
    ensures GetPushObject(branch + ":" + rev, url) == Success(PushRef(branch, rev))
  {
    var spec := branch + ":" + rev;
    assert spec[|branch|] == ':';
    assert IndexOfChar(spec, ':') == Some(|branch|);
    assert spec[..|branch|] == branch && spec[|branch| + 1..] == rev;
  }

  /** The query of a treeherder push URL: `repo=<repo>&revision=<rev>`. */
  function PushQuery(repo: string, rev: string): string
  {
    "repo=" + repo + "&revision=" + rev
  }

  /** The two query items of a push query. */
  lemma TwoItems(repo: string, rev: string)
    requires '&' !in repo && '&' !in rev
    ensures Split(PushQuery(repo, rev), '&') == ["repo=" + repo, "revision=" + rev]
  {
    var first, second := "repo=" + repo, "revision=" + rev;
    assert PushQuery(repo, rev) == first + ['&'] + second;
    assert '&' !in first by {
      assert forall c :: c in first ==> c in "repo=" || c in repo;
    }
    assert '&' !in second by {
      assert forall c :: c in second ==> c in "revision=" || c in rev;
    }
    SplitTwo(first, second, '&');
  }

  /** Parsing `["repo=<repo>", "revision=<rev>"]`. */
  lemma ParamsOfTwo(repo: string, rev: string)
    requires '=' !in repo && '=' !in rev
    ensures Params(["repo=" + repo, "revision=" + rev]) == Success(map["repo" := repo, "revision" := rev])
  {
    var first, second := "repo=" + repo, "revision=" + rev;
    assert first == "repo" + ['='] + repo;
    assert second == "revision" + ['='] + rev;
    SplitTwo("repo", repo, '=');
    SplitTwo("revision", rev, '=');
    var pieces := [["repo", repo], ["revision", rev]];
    assert SplitItems([first, second]) == pieces;
    assert pieces[..1][..0] == [];
    assert Dict(pieces[..1]) == Success(map["repo" := repo]);
    assert Dict(pieces) == Success(map["repo" := repo]["revision" := rev]);
  }

  /** The query items of a fragment are read after its first '?'. */
  lemma QueryAfterMark(path: string, query: string)
    requires '?' !in path
    ensures '?' in path + ['?'] + query
    ensures QueryItems(path + ['?'] + query) == Split(query, '&')
  {
    var fragment := path + ['?'] + query;
    assert fragment[|path|] == '?';
    assert IndexOfChar(fragment, '?') == Some(|path|);
    assert fragment[|path| + 1..] == query;
  }

  /** A treeherder push URL fragment `<path>?repo=<repo>&revision=<rev>` yields `repo` and `rev`. */
  lemma TreeherderRoundTrip(path: string, repo: string, rev: string)
    requires '?' !in path
    requires repo != "" && rev != ""
    requires '&' !in repo && '=' !in repo && '&' !in rev && '=' !in rev
    ensures FromTreeherder(path + ['?'] + PushQuery(repo, rev)) == Success(PushRef(repo, rev))
  {
    var fragment := path + ['?'] + PushQuery(repo, rev);
    QueryAfterMark(path, PushQuery(repo, rev));
    TwoItems(repo, rev);
    ParamsOfTwo(repo, rev);
    var params := map["repo" := repo, "revision" := rev];
    assert Params(QueryItems(fragment)) == Success(params);
    FromParsedQuery(fragment, params);
    assert Get(params, "repo") == Some(repo) && Get(params, "revision") == Some(rev);
  }

  /** Once the query parses, the treeherder branch only checks `repo` and `revision`. */
  lemma FromParsedQuery(fragment: string, params: map<string, string>)
    requires '?' in fragment && Params(QueryItems(fragment)) == Success(params)
    ensures FromTreeherder(fragment) == Checked(Get(params, "repo"), Get(params, "revision"))
  {
  }

  /** The confidence bugbug gave a group, 0 for a group it did not mention. */
  function Confidence(confidences: map<string, real>, g: string): real
  {
    if g in confidences then confidences[g] else 0.0
  }

  /** `set(chain(*groups_by_task.values()))`. */
  function AllGroups(byTask: map<string, set<string>>): (r: set<string>)
    ensures forall g :: g in r <==> exists key :: key in byTask && g in byTask[key]
  {
    set key, g | key in byTask && g in byTask[key] :: g
  }

  /** `sorted(..., reverse=True, key=lambda x: (x[1], x[0]))`: higher confidence, then later group, first. */
  predicate RankedBefore(x: (string, real), y: (string, real))
  {
    x.1 > y.1 || (x.1 == y.1 && Less(y.0, x.0))
  }

  /** Pairs holding distinct groups are totally ordered by `RankedBefore`. */
  lemma RankingIsTotal(pairs: set<(string, real)>)
    requires forall x, y :: x in pairs && y in pairs && x.0 == y.0 ==> x == y
    ensures StrictTotalOrderOn(RankedBefore, pairs)
  {
    forall x, y | x in pairs && y in pairs && x != y
      ensures RankedBefore(x, y) || RankedBefore(y, x)
    {
      LessTotal(x.0, y.0);
    }
    forall x, y | x in pairs && y in pairs && RankedBefore(x, y)
      ensures !RankedBefore(y, x)
    {
      if x.1 == y.1 {
        LessAsymmetric(y.0, x.0);
      }
    }
    forall x, y, z | x in pairs && y in pairs && z in pairs && RankedBefore(x, y) && RankedBefore(y, z)
      ensures RankedBefore(x, z)
    {
      if x.1 == y.1 && y.1 == z.1 {
        LessTransitive(z.0, y.0, x.0);
      }
    }
  }

  /** `[(g, bugbug_data["groups"].get(g, 0)) for g in groups]`, as a set. */
  function Pairing(groups: set<string>, confidences: map<string, real>): (pairs: set<(string, real)>)
    ensures forall p :: p in pairs <==> p.0 in groups && p.1 == Confidence(confidences, p.0)
  {
    set g | g in groups :: (g, Confidence(confidences, g))
  }

  /** Every group yields one pair. */
  lemma {:induction false} PairingKeepsSize(groups: set<string>, confidences: map<string, real>)
    ensures |Pairing(groups, confidences)| == |groups|
    decreases |groups|
  {
    if groups != {} {
      var g :| g in groups;
      var rest := groups - {g};
      PairingKeepsSize(rest, confidences);
      assert Pairing(groups, confidences) == Pairing(rest, confidences) + {(g, Confidence(confidences, g))};
    }
  }

  /**
   * The end of `run`: every group some task ran, paired with its confidence,
   * listed from the most to the least confident.
   */
  method RankGroups(byTask: map<string, set<string>>, confidences: map<string, real>)
    returns (ranked: seq<(string, real)>)
    ensures forall p :: p in ranked <==> p.0 in AllGroups(byTask) && p.1 == Confidence(confidences, p.0)
    ensures forall i, j :: 0 <= i < j < |ranked| ==>
      ranked[i].1 > ranked[j].1 || (ranked[i].1 == ranked[j].1 && Less(ranked[j].0, ranked[i].0))
    ensures |ranked| == |AllGroups(byTask)|
  {
    var pairs := Pairing(AllGroups(byTask), confidences);
    RankingIsTotal(pairs);
    PairingKeepsSize(AllGroups(byTask), confidences);
    ranked := SortSet(pairs, RankedBefore);
  }
}

=== FILE: Push.dfy ===
/**
 * A push's tasks and the regression classification derived from them.
 *
 * Everything the original fetches over the network (the task rows of the
 * push, the decision task's `target-tasks.json` and `task-graph.json`, the
 * hg.mozilla.org record) is an immutable field of `Push`; every memoised
 * property is a function of those fields, or a method proved against one
 * where the original computes it with a loop.
 */
module CiPush {
  import opened Wrappers
  import Strings

  /** The verdict over all retriggers of one label. */
  datatype Status = Pass | Fail | Intermittent

  /** One execution of a task. */
  datatype Task = Task(name: string, duration: int, result: string, classification: string)

  /** The exception a malformed summary raises. */
  datatype Error = AssertionError

  /** A result that makes a task count as failing. */
  predicate IsFailingResult(result: string)
  {
    result == "busted" || result == "exception" || result == "testfailed"
  }

  /** The outcome of a single execution. */
  function TaskStatus(t: Task): Status
  {
    if IsFailingResult(t.result) then Fail else Pass
  }

  // ---------------------------------------------------------------------
  // LabelSummary
  // ---------------------------------------------------------------------

  /** All executions of one label (retriggers and backfills included). */
  datatype LabelSummary = LabelSummary(name: string, tasks: seq<Task>)

  /** Every task of the summary carries the summary's label. */
  predicate WellFormed(s: LabelSummary)
  {
    forall i :: 0 <= i < |s.tasks| ==> s.tasks[i].name == s.name
  }

  /** The dataclass constructor with its `__post_init__` check. */
  function NewLabelSummary(lab: string, tasks: seq<Task>): (r: Result<LabelSummary, Error>)
    ensures r.Success? <==> forall i :: 0 <= i < |tasks| ==> tasks[i].name == lab
    ensures r.Success? ==> r.value.name == lab && r.value.tasks == tasks && WellFormed(r.value)
  {
    if forall i :: 0 <= i < |tasks| ==> tasks[i].name == lab then
      Success(LabelSummary(lab, tasks))
    else
      Failure(AssertionError)
  }

  /** The distinct classifications seen on the summary's tasks. */
  function Classifications(s: LabelSummary): (r: set<string>)
    ensures forall c :: c in r <==> exists i :: 0 <= i < |s.tasks| && s.tasks[i].classification == c
  {
    set i | 0 <= i < |s.tasks| :: s.tasks[i].classification
  }

  /** The distinct raw results seen on the summary's tasks. */
  function Results(s: LabelSummary): (r: set<string>)
    ensures forall x :: x in r <==> exists i :: 0 <= i < |s.tasks| && s.tasks[i].result == x
  {
    set i | 0 <= i < |s.tasks| :: s.tasks[i].result
  }

  /** Every task failed. */
  predicate AllFail(tasks: seq<Task>)
  {
    forall i :: 0 <= i < |tasks| ==> IsFailingResult(tasks[i].result)
  }

  /** No task failed. */
  predicate NoneFail(tasks: seq<Task>)
  {
    forall i :: 0 <= i < |tasks| ==> !IsFailingResult(tasks[i].result)
  }

  /**
   * What the status of a label means: nothing for no tasks, FAIL when every
   * execution failed, PASS when none did, INTERMITTENT when both occur.
   */
  function Verdict(tasks: seq<Task>): Option<Status>
  {
    if |tasks| == 0 then None
    else if AllFail(tasks) then Some(Fail)
    else if NoneFail(tasks) then Some(Pass)
    else Some(Intermittent)
  }

  /** One iteration of the status loop. */
  function StatusStep(overall: Option<Status>, t: Task): Status
  {
    var status := TaskStatus(t);
    if overall.None? then status
    else if status != overall.value then Intermittent
    else overall.value
  }

  /** The status loop as a left fold over the tasks. */
  function FoldStatus(tasks: seq<Task>): Option<Status>
  {
    if |tasks| == 0 then None
    else Some(StatusStep(FoldStatus(tasks[..|tasks| - 1]), tasks[|tasks| - 1]))
  }

  lemma AllNoneSnoc(s: seq<Task>, t: Task)
    ensures AllFail(s + [t]) <==> AllFail(s) && IsFailingResult(t.result)
    ensures NoneFail(s + [t]) <==> NoneFail(s) && !IsFailingResult(t.result)
  {
    var u := s + [t];
    assert u[|s|] == t;
    assert forall i :: 0 <= i < |s| ==> u[i] == s[i];
  }

  /** The fold computes the verdict. */
  lemma {:induction false} FoldIsVerdict(tasks: seq<Task>)
    ensures FoldStatus(tasks) == Verdict(tasks)
  {
    if |tasks| > 0 {
      var init, last := tasks[..|tasks| - 1], tasks[|tasks| - 1];
      assert tasks == init + [last];
      FoldIsVerdict(init);
      AllNoneSnoc(init, last);
    }
  }

  /** Once a prefix has made the status INTERMITTENT, no later task changes it. */
  lemma {:induction false} IntermittentAbsorbs(tasks: seq<Task>, more: seq<Task>)
    requires FoldStatus(tasks) == Some(Intermittent)
    ensures FoldStatus(tasks + more) == Some(Intermittent)
  {
    if |more| > 0 {
      var init := more[..|more| - 1];
      var all := tasks + more;
      assert all[..|all| - 1] == tasks + init;
      IntermittentAbsorbs(tasks, init);
      assert FoldStatus(all) == Some(StatusStep(FoldStatus(tasks + init), all[|all| - 1]));
    } else {
      assert tasks + more == tasks;
    }
  }

  lemma PermutationKeepsAllNone(a: seq<Task>, b: seq<Task>)
    requires multiset(a) == multiset(b)
    ensures AllFail(a) ==> AllFail(b)
    ensures NoneFail(a) ==> NoneFail(b)
  {
    forall j | 0 <= j < |b|
      ensures exists i :: 0 <= i < |a| && a[i] == b[j]
    {
      assert b[j] in multiset(b);
      assert b[j] in a;
    }
  }

  /** Feeding the same tasks in any order yields the same status. */
  lemma StatusOrderIndependent(a: seq<Task>, b: seq<Task>)
    requires multiset(a) == multiset(b)
    ensures FoldStatus(a) == FoldStatus(b)
  {
    assert |a| == |multiset(a)| == |b|;
    PermutationKeepsAllNone(a, b);
    PermutationKeepsAllNone(b, a);
    FoldIsVerdict(a);
    FoldIsVerdict(b);
  }

  /** `LabelSummary.status`: folds the results of the retriggers. */
  method SummaryStatus(s: LabelSummary) returns (overall: Option<Status>)
    ensures overall == Verdict(s.tasks)
  {
    overall := None;
    for i := 0 to |s.tasks|
      invariant overall == FoldStatus(s.tasks[..i])
    {
      var task := s.tasks[i];
      var status := if IsFailingResult(task.result) then Fail else Pass;
      if overall.None? {
        overall := Some(status);
      } else if status != overall.value {
        overall := Some(Intermittent);
      }
      assert s.tasks[..i + 1][..i] == s.tasks[..i];
    }
    assert s.tasks[..|s.tasks|] == s.tasks;
    FoldIsVerdict(s.tasks);
  }

  // ---------------------------------------------------------------------
  // Push
  // ---------------------------------------------------------------------

  /** The hg.mozilla.org JSON record of a push. */
  datatype HgmoRecord = HgmoRecord(pushid: int, backedoutby: Option<string>, parents: seq<string>)

  /**
   * One push: its top-most revision and branch, and the data fetched for it:
   * the task rows of `push_results`, the decision task's `target-tasks.json`
   * (a list of labels) and `task-graph.json` (task id to label).
   */
  datatype Push = Push(
    rev: string,
    branch: string,
    hgmo: HgmoRecord,
    tasks: seq<Task>,
    targetTasks: seq<string>,
    taskGraph: map<string, string>)

  /** The revision that backed this push out; an empty one counts as none. */
  function BackedOutBy(p: Push): (r: Option<string>)
    ensures r.Some? ==> r.value != "" && p.hgmo.backedoutby == r
    ensures r.None? ==> p.hgmo.backedoutby.None? || p.hgmo.backedoutby == Some("")
  {
    match p.hgmo.backedoutby
    case Some(rev) => if rev == "" then None else Some(rev)
    case None => None
  }

  /** `bool(backedoutby)`: hg.mozilla.org names a non-empty backing-out revision. */
  predicate BackedOut(p: Push)
    ensures BackedOut(p) <==> p.hgmo.backedoutby.Some? && p.hgmo.backedoutby.value != ""
  {
    BackedOutBy(p).Some?
  }

  /** The labels of the given tasks. */
  function Labels(tasks: seq<Task>): (r: set<string>)
    ensures forall l :: l in r <==> exists i :: 0 <= i < |tasks| && tasks[i].name == l
  {
    set i | 0 <= i < |tasks| :: tasks[i].name
  }

  /** `task_labels`: every label that ran, retriggers included. */
  function TaskLabels(p: Push): (r: set<string>)
    ensures forall l :: l in r <==> exists i :: 0 <= i < |p.tasks| && p.tasks[i].name == l
  {
    Labels(p.tasks)
  }

  /** `target_task_labels`: every label that could have run. */
  function TargetTaskLabels(p: Push): (r: set<string>)
    ensures forall l :: l in r <==> l in p.targetTasks
  {
    set l | l in p.targetTasks
  }

  /** `scheduled_task_labels`: the labels of the original task graph. */
  function ScheduledTaskLabels(p: Push): (r: set<string>)
    ensures forall l :: l in r <==> exists id :: id in p.taskGraph && p.taskGraph[id] == l
  {
    p.taskGraph.Values
  }

  /** `unscheduled_task_labels`: labels that ran only as retriggers or backfills. */
  function UnscheduledTaskLabels(p: Push): (r: set<string>)
    ensures r <= TaskLabels(p) && r !! ScheduledTaskLabels(p)
    ensures forall l :: l in TaskLabels(p) ==> l in r || l in ScheduledTaskLabels(p)
  {
    TaskLabels(p) - ScheduledTaskLabels(p)
  }

  /** The tasks with the given label, in their original order. */
  function TasksWithLabel(tasks: seq<Task>, lab: string): (r: seq<Task>)
    ensures forall t :: t in r <==> t in tasks && t.name == lab
    ensures |r| <= |tasks|
  {
    if |tasks| == 0 then []
    else
      var init, last := tasks[..|tasks| - 1], tasks[|tasks| - 1];
      assert tasks == init + [last];
      TasksWithLabel(init, lab) + (if last.name == lab then [last] else [])
  }

  lemma NoTasksWithAbsentLabel(tasks: seq<Task>, lab: string)
    requires lab !in Labels(tasks)
    ensures TasksWithLabel(tasks, lab) == []
  {
  }

  lemma LabelsSnoc(s: seq<Task>, t: Task)
    ensures Labels(s + [t]) == Labels(s) + {t.name}
  {
    var u := s + [t];
    assert u[|s|] == t;
    forall l | l in Labels(s) ensures l in Labels(u) {
      var j :| 0 <= j < |s| && s[j].name == l;
      assert u[j] == s[j];
    }
  }

  lemma TasksWithLabelSnoc(s: seq<Task>, t: Task, lab: string)
    ensures TasksWithLabel(s + [t], lab) == TasksWithLabel(s, lab) + (if t.name == lab then [t] else [])
  {
    var u := s + [t];
    assert u[..|u| - 1] == s;
  }

  /** `groups` maps each label of `tasks` to its tasks in order. */
  ghost predicate GroupedBy(groups: map<string, seq<Task>>, tasks: seq<Task>)
  {
    groups.Keys == Labels(tasks) &&
    forall l :: l in groups ==> groups[l] == TasksWithLabel(tasks, l)
  }

  /** Appending one task to its label's list keeps the grouping exact. */
  lemma GroupStep(groups: map<string, seq<Task>>, done: seq<Task>, task: Task)
    requires GroupedBy(groups, done)
    ensures GroupedBy(groups[task.name := (if task.name in groups then groups[task.name] else []) + [task]],
                      done + [task])
  {
    var next := groups[task.name := (if task.name in groups then groups[task.name] else []) + [task]];
    LabelsSnoc(done, task);
    if task.name !in groups {
      NoTasksWithAbsentLabel(done, task.name);
    }
    forall l | l in next
      ensures next[l] == TasksWithLabel(done + [task], l)
    {
      TasksWithLabelSnoc(done, task, l);
    }
  }

  /** `label_summaries`: groups the push's tasks by label. */
  method LabelSummaries(p: Push) returns (summaries: map<string, LabelSummary>)
    ensures summaries.Keys == TaskLabels(p)
    ensures forall l :: l in summaries ==>
      summaries[l] == LabelSummary(l, TasksWithLabel(p.tasks, l))
  {
    var groups: map<string, seq<Task>> := map[];
    for i := 0 to |p.tasks|
      invariant GroupedBy(groups, p.tasks[..i])
    {
      var task := p.tasks[i];
      assert p.tasks[..i + 1] == p.tasks[..i] + [task];
      GroupStep(groups, p.tasks[..i], task);
      var prior := if task.name in groups then groups[task.name] else [];
      groups := groups[task.name := prior + [task]];
    }
    assert p.tasks[..|p.tasks|] == p.tasks;
    summaries := map l | l in groups :: LabelSummary(l, groups[l]);
  }

  /** Each task lies in the summary of its own label and in no other. */
  lemma SummariesPartitionTasks(p: Push, summaries: map<string, LabelSummary>, i: nat)
    requires summaries.Keys == TaskLabels(p)
    requires forall l :: l in summaries ==>
      summaries[l] == LabelSummary(l, TasksWithLabel(p.tasks, l))
    requires i < |p.tasks|
    ensures p.tasks[i].name in summaries
    ensures p.tasks[i] in summaries[p.tasks[i].name].tasks
    ensures forall l :: l in summaries && p.tasks[i] in summaries[l].tasks ==> l == p.tasks[i].name
    ensures forall l :: l in summaries ==> WellFormed(summaries[l]) && |summaries[l].tasks| > 0
  {
    assert p.tasks[i] in p.tasks;
    forall l | l in summaries
      ensures WellFormed(summaries[l]) && |summaries[l].tasks| > 0
    {
      var ts := summaries[l].tasks;
      forall k | 0 <= k < |ts| ensures ts[k].name == l {
        assert ts[k] in ts;
      }
      var j :| 0 <= j < |p.tasks| && p.tasks[j].name == l;
      assert p.tasks[j] in p.tasks;
      assert p.tasks[j] in ts;
    }
  }

  /** `duration` and `scheduled_duration`: `int(seconds / 3600)`, truncating toward zero. */
  function TruncHours(seconds: int): (hours: int)
    ensures seconds >= 0 ==> 0 <= hours && hours * 3600 <= seconds < (hours + 1) * 3600
    ensures seconds < 0 ==> hours <= 0 && (hours - 1) * 3600 < seconds <= hours * 3600
  {
    if seconds >= 0 then seconds / 3600 else -((-seconds) / 3600)
  }

  lemma TruncHoursMonotonic(a: int, b: int)
    requires a <= b
    ensures TruncHours(a) <= TruncHours(b)
  {
  }

  /** The seconds of every task, retriggers included. */
  function TotalSeconds(tasks: seq<Task>): int
  {
    if |tasks| == 0 then 0
    else TotalSeconds(tasks[..|tasks| - 1]) + tasks[|tasks| - 1].duration
  }

  /** The seconds of the first-seen task of every label. */
  function FirstSeenSeconds(tasks: seq<Task>): int
  {
    if |tasks| == 0 then 0
    else
      var init, last := tasks[..|tasks| - 1], tasks[|tasks| - 1];
      FirstSeenSeconds(init) + (if last.name in Labels(init) then 0 else last.duration)
  }

  /** `duration`: total runtime in whole hours. */
  function Duration(p: Push): (hours: int)
    ensures TotalSeconds(p.tasks) >= 0 ==>
      0 <= hours && hours * 3600 <= TotalSeconds(p.tasks) < (hours + 1) * 3600
  {
    TruncHours(TotalSeconds(p.tasks))
  }

  /** `scheduled_duration`: the runtime of the first task seen per label, in whole hours. */
  method ScheduledDuration(p: Push) returns (hours: int)
    ensures hours == TruncHours(FirstSeenSeconds(p.tasks))
  {
    var seen: set<string> := {};
    var duration := 0;
    for i := 0 to |p.tasks|
      invariant seen == Labels(p.tasks[..i])
      invariant duration == FirstSeenSeconds(p.tasks[..i])
    {
      var task := p.tasks[i];
      ghost var done := p.tasks[..i];
      assert p.tasks[..i + 1] == done + [task];
      assert (done + [task])[..i] == done;
      LabelsSnoc(done, task);
      if task.name !in seen {
        seen := seen + {task.name};
        duration := duration + task.duration;
      }
    }
    assert p.tasks[..|p.tasks|] == p.tasks;
    hours := TruncHours(duration);
  }

  predicate NonNegativeDurations(tasks: seq<Task>)
  {
    forall i :: 0 <= i < |tasks| ==> tasks[i].duration >= 0
  }

  lemma {:induction false} FirstSeenAtMostTotal(tasks: seq<Task>)
    requires NonNegativeDurations(tasks)
    ensures 0 <= FirstSeenSeconds(tasks) <= TotalSeconds(tasks)
  {
    if |tasks| > 0 {
      var init := tasks[..|tasks| - 1];
      assert NonNegativeDurations(init) by {
        forall i | 0 <= i < |init| ensures init[i].duration >= 0 {
          assert init[i] == tasks[i];
        }
      }
      FirstSeenAtMostTotal(init);
    }
  }

  /** With non-negative durations, the scheduled runtime never exceeds the total. */
  lemma ScheduledDurationAtMostDuration(p: Push)
    requires NonNegativeDurations(p.tasks)
    ensures 0 <= TruncHours(FirstSeenSeconds(p.tasks)) <= Duration(p)
  {
    FirstSeenAtMostTotal(p.tasks);
    TruncHoursMonotonic(FirstSeenSeconds(p.tasks), TotalSeconds(p.tasks));
  }

  /** Without retriggers (every label runs once) both durations agree. */
  lemma {:induction false} FirstSeenWithoutRetriggers(tasks: seq<Task>)
    requires forall i, j :: 0 <= i < j < |tasks| ==> tasks[i].name != tasks[j].name
    ensures FirstSeenSeconds(tasks) == TotalSeconds(tasks)
  {
    if |tasks| > 0 {
      var init := tasks[..|tasks| - 1];
      assert tasks[|tasks| - 1].name !in Labels(init);
      FirstSeenWithoutRetriggers(init);
    }
  }

  // ---------------------------------------------------------------------
  // Regressions
  // ---------------------------------------------------------------------

  /** A classification that leaves the failure attributed to this push. */
  predicate IsUnresolved(classification: string)
  {
    classification == "not classified" || classification == "fixed by commit"
  }

  predicate HasUnresolved(classifications: set<string>)
  {
    exists c :: c in classifications && IsUnresolved(c)
  }

  /** The summary of a label that did not pass and whose failure is unresolved. */
  predicate Regressed(summary: LabelSummary)
  {
    Verdict(summary.tasks) != Some(Pass) && HasUnresolved(Classifications(summary))
  }

  /** A label regressed by the push: it ran, did not pass, and is unresolved. */
  predicate IsRegression(p: Push, lab: string)
  {
    lab in TaskLabels(p) && Regressed(LabelSummary(lab, TasksWithLabel(p.tasks, lab)))
  }

  /** The set of labels the push regressed. */
  function RegressionSet(p: Push): (r: set<string>)
    ensures forall l :: l in r <==> IsRegression(p, l)
    ensures r <= TaskLabels(p)
  {
    set l | l in TaskLabels(p) && IsRegression(p, l)
  }

  /** The loop of `regressions`: the labels whose summary regressed. */
  method RegressedLabels(summaries: map<string, LabelSummary>) returns (regressions: set<string>)
    ensures forall l :: l in regressions <==> l in summaries && Regressed(summaries[l])
  {
    regressions := {};
    var todo := summaries.Keys;
    while todo != {}
      invariant todo <= summaries.Keys
      invariant forall l :: l in regressions <==> l in summaries.Keys - todo && Regressed(summaries[l])
      decreases todo
    {
      var lab :| lab in todo;
      var summary := summaries[lab];
      var status := SummaryStatus(summary);
      var unresolved := exists c :: c in Classifications(summary) && IsUnresolved(c);
      if status != Some(Pass) && unresolved {
        regressions := regressions + {lab};
      }
      todo := todo - {lab};
    }
  }

  /** `regressions`: scans the label summaries. */
  method Regressions(p: Push) returns (regressions: set<string>)
    ensures regressions == RegressionSet(p)
  {
    var summaries := LabelSummaries(p);
    regressions := RegressedLabels(summaries);
  }

  lemma InTasksWithLabel(tasks: seq<Task>, lab: string, i: nat)
    requires i < |tasks| && tasks[i].name == lab
    ensures exists k :: 0 <= k < |TasksWithLabel(tasks, lab)| && TasksWithLabel(tasks, lab)[k] == tasks[i]
  {
    var ts := TasksWithLabel(tasks, lab);
    assert tasks[i] in tasks;
    assert tasks[i] in ts;
    var k :| 0 <= k < |ts| && ts[k] == tasks[i];
  }

  lemma FromTasksWithLabel(tasks: seq<Task>, lab: string, k: nat)
    requires k < |TasksWithLabel(tasks, lab)|
    ensures exists i :: 0 <= i < |tasks| && tasks[i] == TasksWithLabel(tasks, lab)[k] && tasks[i].name == lab
  {
    var ts := TasksWithLabel(tasks, lab);
    assert ts[k] in ts;
  }

  /** A label that ran did not pass iff one of its executions failed. */
  lemma NotPassIffSomeFailure(tasks: seq<Task>, lab: string)
    requires lab in Labels(tasks)
    ensures Verdict(TasksWithLabel(tasks, lab)) != Some(Pass) <==>
      exists i :: 0 <= i < |tasks| && tasks[i].name == lab && IsFailingResult(tasks[i].result)
  {
    var ts := TasksWithLabel(tasks, lab);
    var j :| 0 <= j < |tasks| && tasks[j].name == lab;
    InTasksWithLabel(tasks, lab, j);
    assert Verdict(ts) != Some(Pass) <==> !NoneFail(ts) by {
      if AllFail(ts) {
        assert IsFailingResult(ts[0].result);
      }
    }
    if exists i :: 0 <= i < |tasks| && tasks[i].name == lab && IsFailingResult(tasks[i].result) {
      var i :| 0 <= i < |tasks| && tasks[i].name == lab && IsFailingResult(tasks[i].result);
      InTasksWithLabel(tasks, lab, i);
    }
    if !NoneFail(ts) {
      var k :| 0 <= k < |ts| && IsFailingResult(ts[k].result);
      FromTasksWithLabel(tasks, lab, k);
    }
  }

  /** A label's classifications include an unresolved one iff one of its executions has one. */
  lemma UnresolvedIffSomeTask(tasks: seq<Task>, lab: string)
    ensures HasUnresolved(Classifications(LabelSummary(lab, TasksWithLabel(tasks, lab)))) <==>
      exists j :: 0 <= j < |tasks| && tasks[j].name == lab && IsUnresolved(tasks[j].classification)
  {
    var ts := TasksWithLabel(tasks, lab);
    var cs := Classifications(LabelSummary(lab, ts));
    if exists j :: 0 <= j < |tasks| && tasks[j].name == lab && IsUnresolved(tasks[j].classification) {
      var j :| 0 <= j < |tasks| && tasks[j].name == lab && IsUnresolved(tasks[j].classification);
      InTasksWithLabel(tasks, lab, j);
      assert tasks[j].classification in cs;
    }
    if HasUnresolved(cs) {
      var c :| c in cs && IsUnresolved(c);
      var k :| 0 <= k < |ts| && ts[k].classification == c;
      FromTasksWithLabel(tasks, lab, k);
    }
  }

  /**
   * Stated on the raw task rows: a label regressed iff one of its executions
   * failed and one of them carries an unresolved classification.
   */
  lemma RegressionFromTasks(p: Push, lab: string)
    ensures IsRegression(p, lab) <==>
      (exists i :: 0 <= i < |p.tasks| && p.tasks[i].name == lab && IsFailingResult(p.tasks[i].result)) &&
      (exists j :: 0 <= j < |p.tasks| && p.tasks[j].name == lab && IsUnresolved(p.tasks[j].classification))
  {
    UnresolvedIffSomeTask(p.tasks, lab);
    if lab in TaskLabels(p) {
      NotPassIffSomeFailure(p.tasks, lab);
    }
  }

  /** `regressions_caught`: regressions among the originally scheduled labels. */
  function RegressionsCaught(p: Push): (r: set<string>)
    ensures r <= RegressionSet(p) && r <= ScheduledTaskLabels(p)
    ensures forall l :: IsRegression(p, l) && l in ScheduledTaskLabels(p) ==> l in r
  {
    RegressionSet(p) * ScheduledTaskLabels(p)
  }

  /** `regressions_missed`: regressions only retriggers or backfills revealed. */
  function RegressionsMissed(p: Push): (r: set<string>)
    ensures r <= RegressionSet(p) && r !! ScheduledTaskLabels(p)
    ensures forall l :: IsRegression(p, l) && l !in ScheduledTaskLabels(p) ==> l in r
  {
    RegressionSet(p) - ScheduledTaskLabels(p)
  }

  /** Caught and missed split the regressions into two disjoint parts. */
  lemma CaughtMissedPartition(p: Push)
    ensures RegressionsCaught(p) !! RegressionsMissed(p)
    ensures RegressionsCaught(p) + RegressionsMissed(p) == RegressionSet(p)
    ensures RegressionsMissed(p) <= UnscheduledTaskLabels(p)
  {
  }

  // ---------------------------------------------------------------------
  // Decision artifacts
  // ---------------------------------------------------------------------

  /** `url.rsplit('/', 1)[1]`; `None` where the index raises `IndexError`. */
  function LastSegment(url: string): (r: Option<string>)
    ensures r.None? <==> '/' !in url
    ensures r.Some? ==> '/' !in r.value && exists k :: 0 <= k < |url| && url[k] == '/' && url[k + 1..] == r.value
  {
    match Strings.LastIndexOfChar(url, '/')
    case None => None
    case Some(k) => Some(url[k + 1..])
  }

  /** Which decision-task artifact URL `_get_decision_artifact` fetches. */
  datatype ArtifactLookup =
    | Found(index: nat)        // the first URL whose last segment is the name
    | NotFound                 // the loop ends and the method returns None
    | MalformedUrl(index: nat) // a URL without '/' raises IndexError first

  /** No URL before `n` has the name as its last segment, and each has one. */
  predicate NoMatchBefore(urls: seq<string>, name: string, n: nat)
    requires n <= |urls|
  {
    forall j :: 0 <= j < n ==> LastSegment(urls[j]).Some? && LastSegment(urls[j]) != Some(name)
  }

  /** The URL-name match of `_get_decision_artifact`. */
  method FindDecisionArtifact(urls: seq<string>, name: string) returns (r: ArtifactLookup)
    ensures r.Found? ==>
      r.index < |urls| && LastSegment(urls[r.index]) == Some(name) && NoMatchBefore(urls, name, r.index)
    ensures r.MalformedUrl? ==>
      r.index < |urls| && '/' !in urls[r.index] && NoMatchBefore(urls, name, r.index)
    ensures r.NotFound? ==> NoMatchBefore(urls, name, |urls|)
  {
    for i := 0 to |urls|
      invariant NoMatchBefore(urls, name, i)
    {
      var segment := LastSegment(urls[i]);
      if segment.None? {
        return MalformedUrl(i);
      }
      if segment.value == name {
        return Found(i);
      }
    }
    return NotFound;
  }
}

=== FILE: PushData.dfy ===
/**
 * recipes/push_data.py: turning the `push_revisions` query rows into a chain
 * of push objects, and the table of per-push data the recipe returns.
 */
module PushData {
  import opened Wrappers
  import CiPush

  /** One row of the `push_revisions` query: a push id, its revisions and their parents. */
  datatype Row = Row(pushid: int, revs: seq<string>, parents: seq<string>)

  /** `set(revs) - set(parents)`: the revisions of the push no other revision of it descends from. */
  function Topmost(row: Row): (r: set<string>)
    ensures forall rev :: rev in r <==> rev in row.revs && rev !in row.parents
  {
    (set rev | rev in row.revs) - (set p | p in row.parents)
  }

  /**
   * A freshly built `Push(rev)`: its revision, its branch, and the `_parent`
   * attribute that `make_push_objects` sets to skip a lookup on
   * hg.mozilla.org (`null` where it is never set).
   */
  class PushObject {
    const rev: string
    const branch: string
    var parent: PushObject?

    constructor(rev: string, branch: string)
      ensures this.rev == rev && this.branch == branch && parent == null
    {
      this.rev := rev;
      this.branch := branch;
      parent := null;
    }
  }

  /** `Push`'s default branch. */
  const DefaultBranch := "autoland"

  /** `list(...)[0]` on an empty list: the index of the offending row. */
  datatype Error = IndexError(row: nat)

  /**
   * `make_push_objects` over the query rows: one push per row, in row order,
   * each at a topmost revision of its row (any one: Python takes the first
   * element of a set) and linked to the push before it.
   */
  method MakePushObjects(rows: seq<Row>) returns (r: Result<seq<PushObject>, Error>)
    ensures r.Failure? <==> exists i :: 0 <= i < |rows| && Topmost(rows[i]) == {}
    ensures r.Failure? ==>
      r.error.row < |rows| && Topmost(rows[r.error.row]) == {} &&
      forall j :: 0 <= j < r.error.row ==> Topmost(rows[j]) != {}
    ensures r.Success? ==> |r.value| == |rows|
    ensures r.Success? ==> forall i :: 0 <= i < |rows| ==>
      fresh(r.value[i]) && r.value[i].rev in Topmost(rows[i]) && r.value[i].branch == DefaultBranch
    ensures r.Success? && |rows| > 0 ==> r.value[0].parent == null
    ensures r.Success? ==> forall i :: 0 < i < |rows| ==> r.value[i].parent == r.value[i - 1]
  {
    var pushes: seq<PushObject> := [];
    var prev: PushObject? := null;
    for i := 0 to |rows|
      invariant |pushes| == i
      invariant forall j :: 0 <= j < i ==> Topmost(rows[j]) != {}
      invariant forall j :: 0 <= j < i ==>
        fresh(pushes[j]) && pushes[j].rev in Topmost(rows[j]) && pushes[j].branch == DefaultBranch
      invariant i > 0 ==> pushes[0].parent == null
      invariant forall j :: 0 < j < i ==> pushes[j].parent == pushes[j - 1]
      invariant prev == if i == 0 then null else pushes[i - 1]
    {
      var candidates := Topmost(rows[i]);
      if candidates == {} {
        return Failure(IndexError(i));
      }
      var topmost :| topmost in candidates;
      var cur := new PushObject(topmost, DefaultBranch);
      if prev != null {
        cur.parent := prev;
      }
      pushes := pushes + [cur];
      prev := cur;
    }
    return Success(pushes);
  }

  /** What `run` reads from each push beyond its revision. */
  datatype Fetched = Fetched(
    push: CiPush.Push,               // the task rows and hg.mozilla.org data of the push
    possibleRegressions: set<string>,
    likelyRegressions: set<string>)

  /** One row of the table `run` returns. */
  datatype TableRow =
    | Header(columns: seq<string>)
    | Data(rev: string, taskLabels: set<string>, possible: set<string>, likely: set<string>)

  const HeaderRow := Header(["Revision", "All Tasks", "Regressions (possible)", "Regressions (likely)"])

  /** The row of `run` for one push. */
  function RowOf(p: PushObject, fetch: (string, string) -> Fetched): (row: TableRow)
    ensures row.Data? && row.rev == p.rev
  {
    var f := fetch(p.rev, p.branch);
    Data(p.rev, CiPush.TaskLabels(f.push), f.possibleRegressions, f.likelyRegressions)
  }

  /**
   * The table of `run`: the header, then one row per push in order, each
   * starting with the push's revision.  `fetch(rev, branch)` stands for the
   * data the push object would download.
   */
  method Table(pushes: seq<PushObject>, fetch: (string, string) -> Fetched) returns (table: seq<TableRow>)
    ensures |table| == |pushes| + 1
    ensures table[0] == HeaderRow
    ensures forall i :: 0 <= i < |pushes| ==> table[i + 1] == RowOf(pushes[i], fetch)
  {
    table := [HeaderRow];
    for i := 0 to |pushes|
      invariant |table| == i + 1
      invariant table[0] == HeaderRow
      invariant forall j :: 0 <= j < i ==> table[j + 1] == RowOf(pushes[j], fetch)
    {
      table := table + [RowOf(pushes[i], fetch)];
    }
  }

  /** `run`: the pushes of the query rows, then their table. */
  method Run(rows: seq<Row>, fetch: (string, string) -> Fetched) returns (r: Result<seq<TableRow>, Error>)
    ensures r.Failure? <==> exists i :: 0 <= i < |rows| && Topmost(rows[i]) == {}
    ensures r.Success? ==> |r.value| == |rows| + 1 && r.value[0] == HeaderRow
    ensures r.Success? ==> forall i :: 0 < i <= |rows| ==>
      r.value[i].Data? && r.value[i].rev in Topmost(rows[i - 1]) &&
      var f := fetch(r.value[i].rev, DefaultBranch);
      r.value[i] == Data(r.value[i].rev, CiPush.TaskLabels(f.push), f.possibleRegressions, f.likelyRegressions)
  {
    var pushes := MakePushObjects(rows);
    if pushes.Failure? {
      return Failure(pushes.error);
    }
    var table := Table(pushes.value, fetch);
    forall i | 0 < i <= |rows|
      ensures table[i].Data? && table[i].rev in Topmost(rows[i - 1])
      ensures var f := fetch(table[i].rev, DefaultBranch);
        table[i] == Data(table[i].rev, CiPush.TaskLabels(f.push), f.possibleRegressions, f.likelyRegressions)
    {
      var p := pushes.value[i - 1];
      assert table[i] == RowOf(p, fetch);
    }
    return Success(table);
  }
}

=== FILE: Scheduler.dfy ===
/**
 * Backtesting of scheduling strategies: each strategy's selection for a push
 * is scored against whether the push was backed out, and the scores of a
 * strategy accumulate across pushes.
 *
 * The strategy's selection comes from (in this order) the cache, the push's
 * own scheduled labels for "baseline", a shadow-scheduler artifact, or a
 * local task-graph generation; the last two are supplied as inputs.
 */
module SchedulerAnalysis {
  import opened Wrappers
  import Strings
  import CiPush

  /** The failures of a task-selection lookup. */
  datatype Error =
    | MissingDataError    // no source could provide the selection
    | ToolFailure         // the local `mach taskgraph` run exited non-zero

  // ---------------------------------------------------------------------
  // Score
  // ---------------------------------------------------------------------

  /** The three counters of a `Score`, as a value. */
  datatype Counts = Counts(primaryBackouts: int, secondaryBackouts: int, tasks: int)

  const Zero := Counts(0, 0, 0)

  /** The constant the scheduler efficiency is scaled by. */
  const EfficiencyScale: real := 100000.0

  /** Field-by-field addition, as `Score.update` performs it. */
  function Plus(a: Counts, b: Counts): Counts
  {
    Counts(a.primaryBackouts + b.primaryBackouts,
           a.secondaryBackouts + b.secondaryBackouts,
           a.tasks + b.tasks)
  }

  /** The scores of a sequence of updates, added in order. */
  function Total(scores: seq<Counts>): Counts
  {
    if |scores| == 0 then Zero
    else Plus(Total(scores[..|scores| - 1]), scores[|scores| - 1])
  }

  lemma {:induction false} TotalAppend(s: seq<Counts>, t: seq<Counts>)
    ensures Total(s + t) == Plus(Total(s), Total(t))
  {
    if |t| == 0 {
      assert s + t == s;
    } else {
      var u := s + t;
      assert u[..|u| - 1] == s + t[..|t| - 1];
      TotalAppend(s, t[..|t| - 1]);
    }
  }

  /** Adding one more score to a running total. */
  lemma TotalStep(start: Counts, scored: seq<Counts>, c: Counts)
    ensures Plus(Plus(start, Total(scored)), c) == Plus(start, Total(scored + [c]))
  {
    assert (scored + [c])[..|scored|] == scored;
  }

  /** Removing the same element from two equal multisets leaves equal multisets. */
  lemma RemoveMatching(init: seq<Counts>, x: Counts, b: seq<Counts>, k: int)
    requires 0 <= k < |b| && b[k] == x
    requires multiset(init + [x]) == multiset(b)
    ensures multiset(init) == multiset(b[..k] + b[k + 1..])
  {
    var pre, post := b[..k], b[k + 1..];
    assert b == pre + [x] + post;
    assert multiset(b) == multiset(pre) + multiset{x} + multiset(post);
    assert multiset(pre + post) == multiset(pre) + multiset(post);
    assert multiset(init + [x]) == multiset(init) + multiset{x};
    forall y ensures multiset(init)[y] == multiset(pre + post)[y] {
      assert (multiset(init) + multiset{x})[y] == multiset(b)[y];
    }
  }

  /** The total of a sequence is the total without one of its scores, plus that score. */
  lemma TotalWithout(b: seq<Counts>, k: int)
    requires 0 <= k < |b|
    ensures Total(b) == Plus(Total(b[..k] + b[k + 1..]), b[k])
  {
    var x, pre, post := b[k], b[..k], b[k + 1..];
    assert b == (pre + [x]) + post;
    TotalAppend(pre + [x], post);
    assert (pre + [x])[..|pre|] == pre;
    assert Total(pre + [x]) == Plus(Total(pre), x);
    TotalAppend(pre, post);
  }

  /** Totals do not depend on the order in which the updates were applied. */
  lemma {:induction false} TotalOrderIndependent(a: seq<Counts>, b: seq<Counts>)
    requires multiset(a) == multiset(b)
    ensures Total(a) == Total(b)
    decreases |a|
  {
    if |a| == 0 {
      assert |b| == |multiset(b)| == 0;
    } else {
      var init, x := a[..|a| - 1], a[|a| - 1];
      assert a == init + [x];
      assert x in multiset(b);
      var k :| 0 <= k < |b| && b[k] == x;
      RemoveMatching(init, x, b, k);
      TotalOrderIndependent(init, b[..k] + b[k + 1..]);
      TotalWithout(b, k);
    }
  }

  /** The keyword names `Score` accepts. */
  const ScoreFields: set<string> := {"primary_backouts", "secondary_backouts", "tasks"}

  /** `Score(**kwargs)`: missing counters default to 0, unknown keywords raise `TypeError`. */
  function KwargsToCounts(kwargs: map<string, int>): (r: Option<Counts>)
    ensures r.Some? <==> kwargs.Keys <= ScoreFields
    ensures r.Some? ==> r.value.primaryBackouts == (if "primary_backouts" in kwargs then kwargs["primary_backouts"] else 0)
    ensures r.Some? ==> r.value.secondaryBackouts == (if "secondary_backouts" in kwargs then kwargs["secondary_backouts"] else 0)
    ensures r.Some? ==> r.value.tasks == (if "tasks" in kwargs then kwargs["tasks"] else 0)
  {
    if kwargs.Keys <= ScoreFields then
      Some(Counts(
        if "primary_backouts" in kwargs then kwargs["primary_backouts"] else 0,
        if "secondary_backouts" in kwargs then kwargs["secondary_backouts"] else 0,
        if "tasks" in kwargs then kwargs["tasks"] else 0))
    else
      None
  }

  /** A strategy's accumulated score. */
  class Score {
    var primaryBackouts: int
    var secondaryBackouts: int
    var tasks: int

    /** The counters as a value. */
    function Value(): Counts
      reads this
    {
      Counts(primaryBackouts, secondaryBackouts, tasks)
    }

    /** `Score(...)` with the given counters. */
    constructor (c: Counts)
      ensures Value() == c
    {
      primaryBackouts, secondaryBackouts, tasks := c.primaryBackouts, c.secondaryBackouts, c.tasks;
    }

    /** `secondary_backout_rate`, as an exact rational (0 when there are no backouts). */
    function SecondaryBackoutRate(): (rate: real)
      reads this
      ensures primaryBackouts + secondaryBackouts == 0 ==> rate == 0.0
      ensures primaryBackouts + secondaryBackouts != 0 ==>
        rate * (primaryBackouts + secondaryBackouts) as real == secondaryBackouts as real
      ensures 0 <= primaryBackouts && 0 <= secondaryBackouts ==> 0.0 <= rate <= 1.0
    {
      var total := primaryBackouts + secondaryBackouts;
      if total == 0 then 0.0 else secondaryBackouts as real / total as real
    }

    /** `scheduler_efficiency`: the scale over rate times tasks (0 when that product is 0). */
    function SchedulerEfficiency(): (efficiency: real)
      reads this
      ensures tasks == 0 || secondaryBackouts == 0 ==> efficiency == 0.0
      ensures SecondaryBackoutRate() * tasks as real != 0.0 ==>
        efficiency * (SecondaryBackoutRate() * tasks as real) == EfficiencyScale
      ensures 0 <= primaryBackouts && 0 < secondaryBackouts && 0 < tasks ==> efficiency > 0.0
    {
      var rate := SecondaryBackoutRate() * tasks as real;
      if rate == 0.0 then 0.0 else EfficiencyScale / rate
    }

    /** `update`: adds the other score's counters to this one's. */
    method Update(other: Score)
      modifies this
      ensures Value() == Plus(old(Value()), old(other.Value()))
    {
      var p, s, t := other.primaryBackouts, other.secondaryBackouts, other.tasks;
      primaryBackouts := primaryBackouts + p;
      secondaryBackouts := secondaryBackouts + s;
      tasks := tasks + t;
    }

    /** `as_dict`: the counters keyed by their names; `Score(**d)` rebuilds them. */
    function AsDict(): (d: map<string, int>)
      reads this
      ensures d.Keys == ScoreFields
      ensures KwargsToCounts(d) == Some(Value())
    {
      map["primary_backouts" := primaryBackouts,
          "secondary_backouts" := secondaryBackouts,
          "tasks" := tasks]
    }
  }

  // ---------------------------------------------------------------------
  // Cache
  // ---------------------------------------------------------------------

  /** The key/value store the selections are kept in (expiry is not modelled). */
  class Cache {
    var entries: map<string, set<string>>

    constructor ()
      ensures entries == map[]
    {
      entries := map[];
    }

    predicate Has(key: string)
      reads this
    {
      key in entries
    }

    function Get(key: string): set<string>
      reads this
      requires Has(key)
    {
      entries[key]
    }

    method Put(key: string, value: set<string>)
      modifies this
      ensures entries == old(entries)[key := value]
    {
      entries := entries[key := value];
    }
  }

  /** The key a strategy's selection for a revision is cached under. */
  function CacheKey(rev: string, name: string, strategyHash: Option<string>): (key: string)
    ensures Strings.StartsWith(key, "scheduler." + rev + "." + name)
    ensures strategyHash.None? ==> |key| == |"scheduler." + rev + "." + name|
    ensures strategyHash.Some? ==> key[|"scheduler." + rev + "." + name|..] == "." + strategyHash.value
  {
    var key := "scheduler." + rev + "." + name;
    match strategyHash
    case None => key
    case Some(h) => key + "." + h
  }

  /** A change to the strategy's code (its hash) always yields a different key. */
  lemma CacheKeyTracksHash(rev: string, name: string, h1: Option<string>, h2: Option<string>)
    requires CacheKey(rev, name, h1) == CacheKey(rev, name, h2)
    ensures h1 == h2
  {
    var base := "scheduler." + rev + "." + name;
    if h1.Some? && h2.Some? {
      assert "." + h1.value == CacheKey(rev, name, h1)[|base|..] == "." + h2.value;
      assert h1.value == ("." + h1.value)[1..];
      assert h2.value == ("." + h2.value)[1..];
    }
  }

  /** Revisions without '.' (hex node ids) never share a cache entry. */
  lemma CacheKeySeparatesRevisions(rev1: string, name1: string, h1: Option<string>,
                                   rev2: string, name2: string, h2: Option<string>)
    requires '.' !in rev1 && '.' !in rev2
    requires CacheKey(rev1, name1, h1) == CacheKey(rev2, name2, h2)
    ensures rev1 == rev2
  {
    var key := CacheKey(rev1, name1, h1);
    var prefix := "scheduler.";
    assert Strings.StartsWith(key, prefix + rev1 + "." + name1);
    assert Strings.StartsWith(key, prefix + rev2 + "." + name2);
    var tail := key[|prefix|..];
    assert tail[..|rev1|] == rev1 && tail[|rev1|] == '.';
    assert tail[..|rev2|] == rev2 && tail[|rev2|] == '.';
  }

  // ---------------------------------------------------------------------
  // Scheduler
  // ---------------------------------------------------------------------

  /**
   * Where a strategy's selection for a push would come from, in priority
   * order; `shadow` is the push's shadow-scheduler artifact for the
   * strategy, `local` the outcome of generating the task graph locally.
   */
  function Resolve(entries: map<string, set<string>>, key: string, name: string,
                   scheduled: set<string>, shadow: Option<set<string>>,
                   geckoAvailable: bool, hasStrategyFile: bool,
                   local: Option<set<string>>): (r: Result<set<string>, Error>)
    ensures key in entries ==> r == Success(entries[key])
    ensures r.Success? ==>
      (key in entries && r.value == entries[key]) || (name == "baseline" && r.value == scheduled) ||
      shadow == Some(r.value) || local == Some(r.value)
    ensures r == Failure(MissingDataError) <==>
      key !in entries && name != "baseline" && shadow.None? && !(geckoAvailable && hasStrategyFile)
    ensures r == Failure(ToolFailure) <==>
      key !in entries && name != "baseline" && shadow.None? && geckoAvailable && hasStrategyFile && local.None?
  {
    if key in entries then Success(entries[key])
    else if name == "baseline" then Success(scheduled)
    else if shadow.Some? then Success(shadow.value)
    else if !geckoAvailable || !hasStrategyFile then Failure(MissingDataError)
    else if local.Some? then Success(local.value)
    else Failure(ToolFailure)
  }

  /** Once a selection is cached, resolving again returns it whatever the other sources say. */
  lemma ResolveAfterPut(entries: map<string, set<string>>, key: string, v: set<string>, name: string,
                        scheduled: set<string>, shadow: Option<set<string>>,
                        geckoAvailable: bool, hasStrategyFile: bool, local: Option<set<string>>)
    ensures Resolve(entries[key := v], key, name, scheduled, shadow, geckoAvailable, hasStrategyFile, local)
      == Success(v)
  {
  }

  /** The score one push contributes for a strategy that selected `selected`. */
  function BackoutScore(selected: set<string>, backedOut: bool, likelyRegressions: set<string>): (c: Counts)
    ensures c.tasks == |selected|
    ensures 0 <= c.primaryBackouts && 0 <= c.secondaryBackouts
    ensures backedOut <==> c.primaryBackouts + c.secondaryBackouts == 1
    ensures !backedOut <==> c.primaryBackouts == 0 && c.secondaryBackouts == 0
    ensures c.primaryBackouts == 1 <==> backedOut && likelyRegressions * selected != {}
    ensures c.secondaryBackouts == 1 <==> backedOut && likelyRegressions * selected == {}
  {
    if !backedOut then Counts(0, 0, |selected|)
    else if likelyRegressions * selected != {} then Counts(1, 0, |selected|)
    else Counts(0, 1, |selected|)
  }

  /** What one push offers a strategy besides the push itself. */
  datatype PushInputs = PushInputs(
    push: CiPush.Push,
    likelyRegressions: set<string>,   // the push's likely regressions (a policy input)
    shadow: Option<set<string>>,      // `push.get_shadow_scheduler_tasks(name)`
    local: Option<set<string>>)       // local task-graph generation: labels, or failure

  /** One strategy under analysis, with its accumulated score. */
  class Scheduler {
    const name: string
    /** The hash of the strategy's source file, when `strategies/<name>.py` exists. */
    const strategyHash: Option<string>
    /** Whether a checkout of the source tree is available for local generation. */
    const geckoAvailable: bool
    const score: Score

    constructor (name: string, strategyHash: Option<string>, geckoAvailable: bool)
      ensures this.name == name && this.strategyHash == strategyHash
      ensures this.geckoAvailable == geckoAvailable
      ensures fresh(score) && score.Value() == Zero
    {
      this.name := name;
      this.strategyHash := strategyHash;
      this.geckoAvailable := geckoAvailable;
      score := new Score(Zero);
    }

    /** `get_tasks`: the strategy's selection for the push, cached after any fresh lookup. */
    method GetTasks(inputs: PushInputs, cache: Cache) returns (r: Result<set<string>, Error>)
      modifies cache
      ensures var key := CacheKey(inputs.push.rev, name, strategyHash);
        r == Resolve(old(cache.entries), key, name, CiPush.ScheduledTaskLabels(inputs.push),
                     inputs.shadow, geckoAvailable, strategyHash.Some?, inputs.local)
      ensures var key := CacheKey(inputs.push.rev, name, strategyHash);
        cache.entries == if key !in old(cache.entries) && r.Success?
                         then old(cache.entries)[key := r.value]
                         else old(cache.entries)
    {
      var key := CacheKey(inputs.push.rev, name, strategyHash);
      if cache.Has(key) {
        return Success(cache.Get(key));
      }
      if name == "baseline" {
        var tasks := CiPush.ScheduledTaskLabels(inputs.push);
        cache.Put(key, tasks);
        return Success(tasks);
      }
      if inputs.shadow.Some? {
        cache.Put(key, inputs.shadow.value);
        return Success(inputs.shadow.value);
      }
      if !geckoAvailable || strategyHash.None? {
        return Failure(MissingDataError);
      }
      if inputs.local.None? {
        return Failure(ToolFailure);
      }
      cache.Put(key, inputs.local.value);
      return Success(inputs.local.value);
    }

    /** The selection `get_tasks` resolves for the push from the cache state `entries`. */
    function Selection(inputs: PushInputs, entries: map<string, set<string>>): Result<set<string>, Error>
    {
      Resolve(entries, CacheKey(inputs.push.rev, name, strategyHash), name,
              CiPush.ScheduledTaskLabels(inputs.push), inputs.shadow,
              geckoAvailable, strategyHash.Some?, inputs.local)
    }

    /** The cache after `get_tasks` for the push: a fresh selection is stored, nothing else changes. */
    function CacheAfter(inputs: PushInputs, entries: map<string, set<string>>): map<string, set<string>>
    {
      var key := CacheKey(inputs.push.rev, name, strategyHash);
      var selection := Selection(inputs, entries);
      if key !in entries && selection.Success? then entries[key := selection.value] else entries
    }

    /** The selection `get_tasks` resolves for the push, scored; or why there is none. */
    function PushOutcome(inputs: PushInputs, entries: map<string, set<string>>): (r: Result<Counts, Error>)
      ensures var selection := Selection(inputs, entries);
        (r.Failure? <==> selection.Failure?) && (r.Failure? ==> r.error == selection.error) &&
        (r.Success? ==>
          r.value.tasks == |selection.value| &&
          r.value.primaryBackouts + r.value.secondaryBackouts == (if CiPush.BackedOut(inputs.push) then 1 else 0) &&
          (r.value.primaryBackouts == 1 <==>
            CiPush.BackedOut(inputs.push) && inputs.likelyRegressions * selection.value != {}))
    {
      match Selection(inputs, entries)
      case Success(selected) =>
        Success(BackoutScore(selected, CiPush.BackedOut(inputs.push), inputs.likelyRegressions))
      case Failure(e) => Failure(e)
    }

    /** `analyze`: scores the push and adds that score to the strategy's total. */
    method Analyze(inputs: PushInputs, cache: Cache) returns (r: Result<Counts, Error>)
      modifies score, cache
      ensures r == PushOutcome(inputs, old(cache.entries))
      ensures cache.entries == CacheAfter(inputs, old(cache.entries))
      ensures r.Success? ==> score.Value() == Plus(old(score.Value()), r.value)
      ensures r.Failure? ==> score.Value() == old(score.Value())
    {
      var selection := GetTasks(inputs, cache);
      if selection.Failure? {
        return Failure(selection.error);
      }
      var tasks := selection.value;
      var pushScore := new Score(Counts(0, 0, |tasks|));
      if CiPush.BackedOut(inputs.push) {
        if inputs.likelyRegressions * tasks != {} {
          pushScore.primaryBackouts := pushScore.primaryBackouts + 1;
        } else {
          pushScore.secondaryBackouts := pushScore.secondaryBackouts + 1;
        }
      }
      score.Update(pushScore);
      return Success(pushScore.Value());
    }

    /**
     * The per-push loop of `run` for this strategy, from the cache state
     * `entries`: the scores of the pushes whose selection resolved, in push
     * order, and the cache afterwards.  A push with `MissingDataError` is
     * skipped; a `ToolFailure` stops the run with the cache as it then is.
     */
    function Replay(pushes: seq<PushInputs>, entries: map<string, set<string>>)
      : (Result<seq<Counts>, Error>, map<string, set<string>>)
      decreases |pushes|
    {
      if |pushes| == 0 then (Success([]), entries)
      else
        var before := Replay(pushes[..|pushes| - 1], entries);
        if before.0.Failure? then before
        else
          var last := pushes[|pushes| - 1];
          var outcome, next := PushOutcome(last, before.1), CacheAfter(last, before.1);
          if outcome.Success? then (Success(before.0.value + [outcome.value]), next)
          else if outcome.error == ToolFailure then (Failure(ToolFailure), next)
          else (before.0, next)
    }

    /**
     * A run scores at most one result per push, fails only with
     * `ToolFailure`, and never drops or overwrites a cached selection.
     */
    lemma {:induction false} ReplayShape(pushes: seq<PushInputs>, entries: map<string, set<string>>)
      ensures Replay(pushes, entries).0.Success? ==> |Replay(pushes, entries).0.value| <= |pushes|
      ensures Replay(pushes, entries).0.Failure? ==> Replay(pushes, entries).0.error == ToolFailure
      ensures entries.Keys <= Replay(pushes, entries).1.Keys
      ensures forall k :: k in entries ==> Replay(pushes, entries).1[k] == entries[k]
      decreases |pushes|
    {
      if |pushes| > 0 {
        ReplayShape(pushes[..|pushes| - 1], entries);
      }
    }

    /** Once a run has stopped, later pushes change neither its result nor the cache. */
    lemma {:induction false} ReplayStops(pushes: seq<PushInputs>, n: nat, entries: map<string, set<string>>)
      requires n <= |pushes| && Replay(pushes[..n], entries).0.Failure?
      ensures Replay(pushes, entries) == Replay(pushes[..n], entries)
      decreases |pushes| - n
    {
      if n < |pushes| {
        assert Replay(pushes[..n + 1], entries) == Replay(pushes[..n], entries) by {
          assert pushes[..n + 1][..n] == pushes[..n];
        }
        ReplayStops(pushes, n + 1, entries);
      } else {
        assert pushes[..n] == pushes;
      }
    }

    /**
     * The per-push loop of `run` for this strategy: a push whose selection is
     * missing is skipped; a failed local generation aborts the run.
     */
    method Backtest(pushes: seq<PushInputs>, cache: Cache) returns (r: Result<seq<Counts>, Error>)
      modifies score, cache
      ensures r == Replay(pushes, old(cache.entries)).0
      ensures cache.entries == Replay(pushes, old(cache.entries)).1
      ensures r.Success? ==> score.Value() == Plus(old(score.Value()), Total(r.value))
      ensures r.Success? ==> |r.value| <= |pushes|
      ensures r.Failure? ==> r.error == ToolFailure
      ensures r.Failure? ==>
        exists n :: 0 <= n < |pushes| && Replay(pushes[..n], old(cache.entries)).0.Success? &&
          score.Value() == Plus(old(score.Value()), Total(Replay(pushes[..n], old(cache.entries)).0.value))
    {
      var scored: seq<Counts> := [];
      for i := 0 to |pushes|
        invariant score.Value() == Plus(old(score.Value()), Total(scored))
        invariant |scored| <= i
        invariant Replay(pushes[..i], old(cache.entries)) == (Success(scored), cache.entries)
      {
        ghost var before := score.Value();
        assert pushes[..i + 1][..i] == pushes[..i] && pushes[..i + 1][i] == pushes[i];
        var outcome := Analyze(pushes[i], cache);
        if outcome.Success? {
          var c := outcome.value;
          TotalStep(old(score.Value()), scored, c);
          scored := scored + [c];
        } else if outcome.error == ToolFailure {
          ReplayStops(pushes, i + 1, old(cache.entries));
          assert Replay(pushes[..i], old(cache.entries)).0.value == scored;
          return Failure(outcome.error);
        } else {
          assert score.Value() == before;
        }
      }
      assert pushes[..|pushes|] == pushes;
      return Success(scored);
    }
  }
}

=== FILE: Sorting.dfy ===
/**
 * Python's `sorted` applied to a collection of distinct elements: the result
 * lists every element once, in the order `before` prescribes.
 */
module Sorting {
  import Strings

  /** `before` is a strict total order on the elements of `elems`. */
  ghost predicate StrictTotalOrderOn<T>(before: (T, T) -> bool, elems: set<T>)
  {
    (forall x, y :: x in elems && y in elems && x != y ==> before(x, y) || before(y, x)) &&
    (forall x, y :: x in elems && y in elems && before(x, y) ==> !before(y, x)) &&
    (forall x, y, z :: x in elems && y in elems && z in elems && before(x, y) && before(y, z) ==> before(x, z))
  }

  /** Every element comes `before` every later one. */
  predicate SortedBy<T>(s: seq<T>, before: (T, T) -> bool)
  {
    forall i, j :: 0 <= i < j < |s| ==> before(s[i], s[j])
  }

  /** Inserting `x` at position `p` keeps a sorted sequence sorted. */
  lemma InsertKeepsSorted<T>(r: seq<T>, x: T, p: nat, before: (T, T) -> bool, elems: set<T>)
    requires StrictTotalOrderOn(before, elems)
    requires x in elems && forall i :: 0 <= i < |r| ==> r[i] in elems
    requires SortedBy(r, before) && p <= |r|
    requires forall i :: 0 <= i < p ==> before(r[i], x)
    requires p < |r| ==> before(x, r[p])
    ensures SortedBy(r[..p] + [x] + r[p..], before)
  {
    var s := r[..p] + [x] + r[p..];
    forall i, j | 0 <= i < j < |s| ensures before(s[i], s[j]) {
      if j < p {
        assert s[i] == r[i] && s[j] == r[j];
      } else if j == p {
        assert s[i] == r[i] && s[j] == x;
      } else if i < p {
        assert s[i] == r[i] && s[j] == r[j - 1];
        assert before(r[i], x);
        if j - 1 > p {
          assert before(x, r[p]) && before(r[p], r[j - 1]);
        }
      } else if i == p {
        assert s[i] == x && s[j] == r[j - 1];
        if j - 1 > p {
          assert before(r[p], r[j - 1]);
        }
      } else {
        assert s[i] == r[i - 1] && s[j] == r[j - 1];
      }
    }
  }

  /** Inserts `x`, which `r` lacks, at the place that keeps `r` sorted. */
  method Insert<T>(r: seq<T>, x: T, before: (T, T) -> bool, ghost elems: set<T>) returns (s: seq<T>)
    requires StrictTotalOrderOn(before, elems)
    requires x in elems && x !in r && forall i :: 0 <= i < |r| ==> r[i] in elems
    requires SortedBy(r, before)
    ensures SortedBy(s, before)
    ensures forall y :: y in s <==> y in r || y == x
    ensures |s| == |r| + 1
  {
    var p := 0;
    while p < |r| && before(r[p], x)
      invariant 0 <= p <= |r|
      invariant forall i :: 0 <= i < p ==> before(r[i], x)
    {
      p := p + 1;
    }
    assert p < |r| ==> r[p] in r && r[p] != x;
    InsertKeepsSorted(r, x, p, before, elems);
    assert r == r[..p] + r[p..];
    s := r[..p] + [x] + r[p..];
  }

  /** `sorted(elems, ...)` for a set: insertion sort. */
  method SortSet<T>(elems: set<T>, before: (T, T) -> bool) returns (r: seq<T>)
    requires StrictTotalOrderOn(before, elems)
    ensures SortedBy(r, before)
    ensures forall x :: x in r <==> x in elems
    ensures |r| == |elems|
  {
    r := [];
    var rest := elems;
    while rest != {}
      invariant rest <= elems
      invariant SortedBy(r, before)
      invariant forall x :: x in r <==> x in elems - rest
      invariant |r| + |rest| == |elems|
      decreases rest
    {
      var x :| x in rest;
      assert x !in r;
      assert forall i :: 0 <= i < |r| ==> r[i] in r;
      r := Insert(r, x, before, elems);
      rest := rest - {x};
    }
  }

  /** A non-empty sequence holds its first element. */
  lemma HeadIsMember<T>(y: seq<T>)
    ensures |y| > 0 ==> y[0] in y
  {
  }

  /**
   * Two sequences sorted by the same strict order and holding the same
   * elements are equal: comparing `sorted` lists compares the sets.
   */
  lemma {:induction false} SortedUnique<T>(x: seq<T>, y: seq<T>, before: (T, T) -> bool, elems: set<T>)
    requires StrictTotalOrderOn(before, elems)
    requires forall u :: u in x ==> u in elems
    requires SortedBy(x, before) && SortedBy(y, before)
    requires forall u :: u in x <==> u in y
    ensures x == y
    decreases |x|
  {
    if |x| == 0 {
      HeadIsMember(y);
    } else {
      assert |y| > 0 by { assert x[0] in y; }
      assert x[0] == y[0] || before(y[0], x[0]) by { assert x[0] in y; }
      assert y[0] == x[0] || before(x[0], y[0]) by { assert y[0] in y; }
      forall u
        ensures u in x[1..] <==> u in y[1..]
      {
        if u in x[1..] {
          var j :| 1 <= j < |x| && x[j] == u;
          assert before(x[0], u);
          assert u in y;
        }
        if u in y[1..] {
          var j :| 1 <= j < |y| && y[j] == u;
          assert before(y[0], u);
          assert u in x;
        }
      }
      SortedUnique(x[1..], y[1..], before, elems);
      assert x == [x[0]] + x[1..] && y == [y[0]] + y[1..];
    }
  }

  /** Python's ordering of strings is a strict total order. */
  lemma StringsOrdered(elems: set<string>)
    ensures StrictTotalOrderOn(Strings.Less, elems)
  {
    forall x, y | x in elems && y in elems && x != y
      ensures Strings.Less(x, y) || Strings.Less(y, x)
    {
      Strings.LessTotal(x, y);
    }
    forall x, y | x in elems && y in elems && Strings.Less(x, y)
      ensures !Strings.Less(y, x)
    {
      Strings.LessAsymmetric(x, y);
    }
    forall x, y, z | x in elems && y in elems && z in elems && Strings.Less(x, y) && Strings.Less(y, z)
      ensures Strings.Less(x, z)
    {
      Strings.LessTransitive(x, y, z);
    }
  }
}

=== FILE: Strings.dfy ===
/**
 * The few pieces of Python's `str` behaviour the recipes rely on: substring
 * search (`in`, `index`), single-character `replace`, `split`, `rsplit`,
 * `startswith`, and the code-point ordering used by `sorted`.
 */
module Strings {
  import opened Wrappers

  /** `pat` occurs in `s` starting at position `i`. */
  predicate OccursAt(s: string, pat: string, i: nat)
  {
    i + |pat| <= |s| && s[i..i + |pat|] == pat
  }

  /** The first position at or after `from` where `pat` occurs in `s`. */
  function FindFrom(s: string, pat: string, from: nat): (r: Option<nat>)
    ensures r.Some? ==> from <= r.value && OccursAt(s, pat, r.value)
    ensures r.Some? ==> forall j :: from <= j < r.value ==> !OccursAt(s, pat, j)
    ensures r.None? ==> forall j :: from <= j ==> !OccursAt(s, pat, j)
    decreases |s| - from
  {
    if from + |pat| > |s| then None
    else if s[from..from + |pat|] == pat then Some(from)
    else FindFrom(s, pat, from + 1)
  }

  /** Python's `s.index(pat)`, with `None` where Python raises `ValueError`. */
  function IndexOf(s: string, pat: string): (r: Option<nat>)
    ensures r.Some? ==> OccursAt(s, pat, r.value) && r.value + |pat| <= |s|
    ensures r.Some? ==> forall j: nat :: j < r.value ==> !OccursAt(s, pat, j)
    ensures r.None? <==> forall j: nat :: !OccursAt(s, pat, j)
  {
    FindFrom(s, pat, 0)
  }

  /** Python's `pat in s`. */
  predicate Contains(s: string, pat: string)
  {
    IndexOf(s, pat).Some?
  }

  /** The first position of `c` in `s`. */
  function IndexOfChar(s: string, c: char): (r: Option<nat>)
    ensures r.Some? ==> r.value < |s| && s[r.value] == c && c !in s[..r.value]
    ensures r.None? <==> c !in s
  {
    if |s| == 0 then None
    else if s[0] == c then Some(0)
    else
      match IndexOfChar(s[1..], c)
      case None => None
      case Some(k) =>
        assert s[..k + 1] == [s[0]] + s[1..][..k];
        Some(k + 1)
  }

  /** The last position of `c` in `s` (what `rsplit(c, 1)` cuts at). */
  function LastIndexOfChar(s: string, c: char): (r: Option<nat>)
    ensures r.Some? ==> r.value < |s| && s[r.value] == c && c !in s[r.value + 1..]
    ensures r.None? <==> c !in s
  {
    if |s| == 0 then None
    else if s[|s| - 1] == c then Some(|s| - 1)
    else
      match LastIndexOfChar(s[..|s| - 1], c)
      case None => None
      case Some(k) =>
        assert s[k + 1..] == s[..|s| - 1][k + 1..] + [s[|s| - 1]];
        Some(k)
  }

  /** Python's `s.replace(target, replacement)` for single characters. */
  function ReplaceChar(s: string, target: char, replacement: char): (r: string)
    ensures |r| == |s|
    ensures forall i :: 0 <= i < |s| && s[i] != target ==> r[i] == s[i]
    ensures forall i :: 0 <= i < |s| && s[i] == target ==> r[i] == replacement
    ensures target != replacement ==> target !in r
  {
    if |s| == 0 then []
    else [if s[0] == target then replacement else s[0]] + ReplaceChar(s[1..], target, replacement)
  }

  /** `parts` joined back together with `sep` between neighbours. */
  function Join(parts: seq<string>, sep: char): string
  {
    if |parts| == 0 then []
    else if |parts| == 1 then parts[0]
    else parts[0] + [sep] + Join(parts[1..], sep)
  }

  /** Python's `s.split(sep)` for a single-character separator. */
  function Split(s: string, sep: char): (parts: seq<string>)
    ensures |parts| >= 1
    ensures forall k :: 0 <= k < |parts| ==> sep !in parts[k]
    ensures Join(parts, sep) == s
    ensures sep !in s ==> parts == [s]
    ensures sep in s ==> |parts| >= 2 && s == parts[0] + [sep] + s[|parts[0]| + 1..]
    decreases |s|
  {
    match IndexOfChar(s, sep)
    case None => [s]
    case Some(i) =>
      var rest := Split(s[i + 1..], sep);
      var parts := [s[..i]] + rest;
      assert parts[1..] == rest;
      assert s == s[..i] + [sep] + s[i + 1..];
      parts
  }

  /** A string holding one separator splits into the two sides. */
  lemma SplitTwo(x: string, y: string, sep: char)
    requires sep !in x && sep !in y
    ensures Split(x + [sep] + y, sep) == [x, y]
  {
    var s := x + [sep] + y;
    assert s[|x|] == sep;
    assert IndexOfChar(s, sep) == Some(|x|);
    assert s[..|x|] == x && s[|x| + 1..] == y;
  }

  /** Python's `s.startswith(prefix)`. */
  predicate StartsWith(s: string, prefix: string)
  {
    |prefix| <= |s| && s[..|prefix|] == prefix
  }

  predicate IsDigit(c: char)
  {
    '0' <= c <= '9'
  }

  /** A non-empty run of decimal digits. */
  predicate IsDecimal(s: string)
  {
    |s| > 0 && forall i :: 0 <= i < |s| ==> IsDigit(s[i])
  }

  /** Python's `a < b` on strings: lexicographic by code point. */
  predicate Less(a: string, b: string)
  {
    if |a| == 0 then |b| > 0
    else if |b| == 0 then false
    else if a[0] != b[0] then a[0] < b[0]
    else Less(a[1..], b[1..])
  }

  lemma {:induction false} LessTransitive(a: string, b: string, c: string)
    requires Less(a, b) && Less(b, c)
    ensures Less(a, c)
  {
    if |a| > 0 && |b| > 0 && |c| > 0 && a[0] == b[0] == c[0] {
      LessTransitive(a[1..], b[1..], c[1..]);
    }
  }

  lemma {:induction false} LessTotal(a: string, b: string)
    requires a != b
    ensures Less(a, b) || Less(b, a)
  {
    if |a| > 0 && |b| > 0 && a[0] == b[0] {
      assert a == [a[0]] + a[1..] && b == [b[0]] + b[1..];
      LessTotal(a[1..], b[1..]);
    }
  }

  lemma {:induction false} LessAsymmetric(a: string, b: string)
    requires Less(a, b)
    ensures !Less(b, a)
  {
    if |a| > 0 && |b| > 0 && a[0] == b[0] {
      LessAsymmetric(a[1..], b[1..]);
    }
  }
}

=== FILE: TestGroups.dfy ===
/**
 * What recipes/compare_pushes.py and recipes/inspect_bugbug.py share: the
 * test tasks of a push as reported by `mozci` (a label and the manifests or
 * groups it ran), the removal of a trailing chunk number from a label, the
 * conversion of a manifest path to one relative to the reftest root, and the
 * fold of every task's groups into one set per chunk-less label.
 */
module TestGroups {
  import opened Wrappers
  import opened Strings

  /** A task's `groups` attribute: a single string, or a list of them. */
  datatype Groups = One(group: string) | Many(groups: seq<string>)

  /** One task of a `mozci` push: its label and the groups it ran. */
  datatype TestTask = TestTask(name: string, groups: Groups)

  /** What the recipes read from a `mozci` push. */
  datatype TestPush = TestPush(tasks: seq<TestTask>, scheduledTaskLabels: set<string>)

  /** `[groups]` for a single string, the list itself otherwise. */
  function GroupList(g: Groups): (r: seq<string>)
    ensures g.One? ==> r == [g.group]
    ensures g.Many? ==> r == g.groups
  {
    match g
    case One(x) => [x]
    case Many(xs) => xs
  }

  /** The text after the last '-' of a label. */
  function LastChunk(name: string): (chunk: string)
    requires '-' in name
    ensures '-' !in chunk && |chunk| < |name|
    ensures name == name[..|name| - |chunk| - 1] + "-" + chunk
  {
    var k := LastIndexOfChar(name, '-').value;
    assert name == name[..k] + "-" + name[k + 1..];
    name[k + 1..]
  }

  /**
   * The key a task is filed under: its label without the trailing
   * `-<chunk number>` when the last '-' segment is a number, the whole label
   * otherwise.  The label must contain a '-' (the callers only pass labels
   * starting with "test-"); Python would fail to unpack `rsplit` otherwise.
   */
  function ChunklessLabel(name: string): (key: string)
    requires '-' in name
    ensures key == name || (IsDecimal(LastChunk(name)) && name == key + "-" + LastChunk(name))
  {
    var k := LastIndexOfChar(name, '-').value;
    if IsDecimal(name[k + 1..]) then name[..k] else name
  }

  /** The key is the label cut before its last '-' exactly when the last segment is a number. */
  lemma ChunklessLabelCases(name: string)
    requires '-' in name
    ensures IsDecimal(LastChunk(name)) ==> name == ChunklessLabel(name) + "-" + LastChunk(name)
    ensures !IsDecimal(LastChunk(name)) ==> ChunklessLabel(name) == name
  {
    var k := LastIndexOfChar(name, '-').value;
    assert name == name[..k] + "-" + name[k + 1..];
  }

  /** The last '-' of `base + "-" + suffix` is the one added, when `suffix` has none. */
  lemma LastDashIsSeparator(base: string, suffix: string)
    requires '-' !in suffix
    ensures LastIndexOfChar(base + "-" + suffix, '-') == Some(|base|)
  {
    var s := base + "-" + suffix;
    assert s[|base|] == '-';
  }

  /** A numbered chunk is removed, whatever the rest of the label holds. */
  lemma {:induction false} ChunkNumberRemoved(base: string, number: string)
    requires IsDecimal(number)
    ensures ChunklessLabel(base + "-" + number) == base
  {
    assert '-' !in number;
    LastDashIsSeparator(base, number);
    var name := base + "-" + number;
    assert name[|base| + 1..] == number;
    assert name[..|base|] == base;
  }

  /** A label whose last segment is not a number is its own key. */
  lemma {:induction false} UnnumberedLabelKept(base: string, suffix: string)
    requires '-' !in suffix && !IsDecimal(suffix)
    ensures ChunklessLabel(base + "-" + suffix) == base + "-" + suffix
  {
    LastDashIsSeparator(base, suffix);
    assert (base + "-" + suffix)[|base| + 1..] == suffix;
  }

  /** Where the checked-out tests live inside a reftest manifest path. */
  const ReftestRoot := "tests/reftest/tests"

  /** `manifest.replace(ntpath.sep, '/')`: Windows separators become '/'. */
  function Slashed(manifest: string): string
  {
    ReplaceChar(manifest, '\\', '/')
  }

  /** Cutting `s` after the root found at `i` and the character that follows it. */
  lemma CutAfterRoot(s: string, i: nat)
    requires i + |ReftestRoot| < |s| && s[i..i + |ReftestRoot|] == ReftestRoot
    ensures s == s[..i] + ReftestRoot + [s[i + |ReftestRoot|]] + s[i + |ReftestRoot| + 1..]
    ensures forall c :: c in s[i + |ReftestRoot| + 1..] ==> c in s
  {
    var cut := i + |ReftestRoot| + 1;
    assert s == s[..i] + s[i..i + |ReftestRoot|] + [s[i + |ReftestRoot|]] + s[cut..];
  }

  /**
   * `normalize` of recipes/compare_pushes.py: after converting separators,
   * everything up to and including the first reftest root and the character
   * following it is dropped; slicing past the end gives the empty string.
   */
  function StripReftestRoot(manifest: string): (r: string)
    ensures '\\' !in r
    ensures |r| <= |manifest|
    ensures !Contains(Slashed(manifest), ReftestRoot) ==> r == Slashed(manifest)
    ensures Contains(Slashed(manifest), ReftestRoot) ==>
      var s, i := Slashed(manifest), IndexOf(Slashed(manifest), ReftestRoot).value;
      (i + |ReftestRoot| < |s| ==> s == s[..i] + ReftestRoot + [s[i + |ReftestRoot|]] + r) &&
      (i + |ReftestRoot| == |s| ==> r == [])
  {
    var s := Slashed(manifest);
    match IndexOf(s, ReftestRoot)
    case None => s
    case Some(i) =>
      var cut := i + |ReftestRoot| + 1;
      if cut <= |s| then
        CutAfterRoot(s, i);
        s[cut..]
      else []
  }

  /** A path that is already relative to the reftest root is left alone. */
  lemma RelativePathUnchanged(manifest: string)
    requires '\\' !in manifest && !Contains(manifest, ReftestRoot)
    ensures StripReftestRoot(manifest) == manifest
  {
    assert Slashed(manifest) == manifest;
  }

  /** The groups of a task after `normalize` has been applied to each. */
  function NormalizedGroups(t: TestTask, normalize: string -> string): (r: set<string>)
    ensures forall g :: g in r <==> exists x :: x in GroupList(t.groups) && normalize(x) == g
  {
    set x | x in GroupList(t.groups) :: normalize(x)
  }

  /** Task `t` is filed under `key`. */
  predicate FiledUnder(t: TestTask, key: string)
  {
    '-' in t.name && ChunklessLabel(t.name) == key
  }

  /** Task `t` puts group `g` into the set of `key`. */
  predicate Contributes(t: TestTask, key: string, g: string, normalize: string -> string)
  {
    FiledUnder(t, key) && g in NormalizedGroups(t, normalize)
  }

  /** The tasks of `tasks` that `keep` accepts, in their original order. */
  function Filter(tasks: seq<TestTask>, keep: TestTask -> bool): (r: seq<TestTask>)
    ensures forall t :: t in r <==> t in tasks && keep(t)
    ensures |r| <= |tasks|
  {
    if |tasks| == 0 then []
    else (if keep(tasks[0]) then [tasks[0]] else []) + Filter(tasks[1..], keep)
  }

  /** Every label starting with "test-" has a '-' for `rsplit` to cut at. */
  lemma TestPrefixHasDash(name: string)
    requires StartsWith(name, "test-")
    ensures '-' in name
  {
    assert name[4] == name[..5][4];
  }

  /** The keys of `byKey` are the keys of the tasks of `tasks`. */
  ghost predicate KeysFrom(byKey: map<string, set<string>>, tasks: seq<TestTask>)
  {
    forall key :: key in byKey <==> exists u :: u in tasks && FiledUnder(u, key)
  }

  /** Each key of `byKey` holds the groups its tasks of `tasks` contribute. */
  ghost predicate GroupsFrom(byKey: map<string, set<string>>, tasks: seq<TestTask>, normalize: string -> string)
  {
    forall key, g :: key in byKey ==>
      (g in byKey[key] <==> exists u :: u in tasks && Contributes(u, key, g, normalize))
  }

  /** Filing one more task keeps the keys exact; `all` holds the tasks filed so far and `t`. */
  lemma FoldKeysStep(byKey: map<string, set<string>>, tasks: seq<TestTask>, t: TestTask,
                     all: seq<TestTask>, next: map<string, set<string>>)
    requires '-' in t.name
    requires forall u :: u in all <==> u in tasks || u == t
    requires KeysFrom(byKey, tasks)
    requires next.Keys == byKey.Keys + {ChunklessLabel(t.name)}
    ensures KeysFrom(next, all)
  {
    var key := ChunklessLabel(t.name);
    forall k
      ensures k in next <==> exists u :: u in all && FiledUnder(u, k)
    {
      if k == key {
        assert FiledUnder(t, k);
      } else if k !in byKey {
        assert forall u :: u in all ==> !FiledUnder(u, k);
      }
    }
  }

  /** Filing task `t` adds its groups to the set of its own key. */
  lemma FoldGroupsAtKey(tasks: seq<TestTask>, t: TestTask, all: seq<TestTask>, before: set<string>, g: string,
                        normalize: string -> string)
    requires '-' in t.name
    requires forall u :: u in all <==> u in tasks || u == t
    requires forall h :: h in before <==>
      exists u :: u in tasks && Contributes(u, ChunklessLabel(t.name), h, normalize)
    ensures g in before + NormalizedGroups(t, normalize) <==>
      exists u :: u in all && Contributes(u, ChunklessLabel(t.name), g, normalize)
  {
    var key := ChunklessLabel(t.name);
    if g in before {
      var u :| u in tasks && Contributes(u, key, g, normalize);
      assert u in all;
    } else if g in NormalizedGroups(t, normalize) {
      assert Contributes(t, key, g, normalize);
    }
  }

  /** Filing task `t` leaves the sets of the other keys alone. */
  lemma FoldGroupsElsewhere(tasks: seq<TestTask>, t: TestTask, all: seq<TestTask>, k: string, g: string,
                            normalize: string -> string)
    requires '-' in t.name && k != ChunklessLabel(t.name)
    requires forall u :: u in all <==> u in tasks || u == t
    ensures (exists u :: u in all && Contributes(u, k, g, normalize)) <==>
      exists u :: u in tasks && Contributes(u, k, g, normalize)
  {
  }

  /** Filing one more task keeps every key's set of groups exact. */
  lemma FoldGroupsStep(byKey: map<string, set<string>>, tasks: seq<TestTask>, t: TestTask, all: seq<TestTask>,
                       normalize: string -> string, next: map<string, set<string>>)
    requires '-' in t.name
    requires forall u :: u in all <==> u in tasks || u == t
    requires KeysFrom(byKey, tasks) && GroupsFrom(byKey, tasks, normalize)
    requires var key := ChunklessLabel(t.name);
      next == byKey[key := (if key in byKey then byKey[key] else {}) + NormalizedGroups(t, normalize)]
    ensures GroupsFrom(next, all, normalize)
  {
    var key := ChunklessLabel(t.name);
    var before := if key in byKey then byKey[key] else {};
    if key !in byKey {
      assert forall u :: u in tasks ==> !FiledUnder(u, key);
    }
    forall k, g | k in next
      ensures g in next[k] <==> exists u :: u in all && Contributes(u, k, g, normalize)
    {
      if k == key {
        FoldGroupsAtKey(tasks, t, all, before, g, normalize);
      } else {
        FoldGroupsElsewhere(tasks, t, all, k, g, normalize);
      }
    }
  }

  /** One more element of a prefix. */
  lemma PrefixSnoc(tasks: seq<TestTask>, i: nat)
    requires i < |tasks|
    ensures forall u :: u in tasks[..i + 1] <==> u in tasks[..i] || u == tasks[i]
  {
    assert tasks[..i + 1] == tasks[..i] + [tasks[i]];
  }

  /**
   * The `defaultdict(set)` loop of `get_manifests_by_task` and
   * `get_groups_by_task`: every task files its normalised groups under its
   * chunk-less label; a task with no groups still creates its key.
   */
  method CollectGroups(tasks: seq<TestTask>, normalize: string -> string)
    returns (byKey: map<string, set<string>>)
    requires forall t :: t in tasks ==> '-' in t.name
    ensures forall key :: key in byKey <==> exists t :: t in tasks && FiledUnder(t, key)
    ensures forall key, g :: key in byKey ==>
      (g in byKey[key] <==> exists t :: t in tasks && Contributes(t, key, g, normalize))
  {
    byKey := map[];
    for i := 0 to |tasks|
      invariant KeysFrom(byKey, tasks[..i]) && GroupsFrom(byKey, tasks[..i], normalize)
    {
      var t := tasks[i];
      PrefixSnoc(tasks, i);
      var key := ChunklessLabel(t.name);
      var before := if key in byKey then byKey[key] else {};
      var next := byKey[key := before + NormalizedGroups(t, normalize)];
      FoldKeysStep(byKey, tasks[..i], t, tasks[..i + 1], next);
      FoldGroupsStep(byKey, tasks[..i], t, tasks[..i + 1], normalize, next);
      byKey := next;
    }
    assert tasks[..|tasks|] == tasks;
  }
}

=== FILE: Wrappers.dfy ===
/** Failure-carrying return types shared by every module of the model. */
module Wrappers {

  /** A value that may be absent, like Python's `None`. */
  datatype Option<+T> = None | Some(value: T)

  /** Either a value or the exception the source would raise instead. */
  datatype Result<+T, +E> = Success(value: T) | Failure(error: E)
}
